=== FILE: README.md ===
# Treemap engine, linked list and nested lists in Dafny

This project models three pieces of a course repository.

- **The treemap engine** (`TMTree`, a2/tm_trees.py). A tree of named nodes has sizes, screen rectangles, colours, depths and expanded/collapsed flags. The model covers:
  - the construction size rule;
  - the proportional rectangle layout;
  - the visible frontier that the renderer draws;
  - the click hit-test;
  - size re-derivation, `change_size`, the cascading `delete_self` and `move`;
  - the depth and grey-shade passes;
  - the expand and collapse family;
  - the path string.
- **The singly linked list** (labs/lab5/linked_list.py): construction, `is_empty`, `__len__`, `__getitem__`, `insert` and `__str__`.
- **The int-or-list recursions** (labs/lab6/nested.py): `add_n`, `nested_list_equal` and `duplicate`.

The tree is an immutable datatype, `Trees.Tree`. A node is addressed by a path of child indices from the root, which stands in for the source's parent references. Every mutating method of `TMTree` becomes a function from tree to tree that takes the path of the node it acts on. `Trees.Blank` erases one class of fields: sizes, rectangles, colours, expansion flags or depths. An `ensures Blank(u, F) == Blank(t, F)` therefore states that an operation changes nothing but the fields of class F.

Modules and files:

| file | module | models |
|---|---|---|
| wrappers.dfy | `Wrappers` | `Option` and `Result` |
| intmath.dfy | `IntMath` | exact floor and ceiling division, `Max` |
| trees.dfy | `Trees` | node record, invariants, construction, paths |
| layout.dfy | `TreeLayout` | `update_rectangles` |
| display.dfy | `TreeDisplay` | `get_rectangles`, `get_tree_at_position` |
| sizes.dfy | `TreeSizes` | `update_data_sizes`, `change_size` |
| edits.dfy | `TreeEdits` | `delete_self`, `move` |
| expansion.dfy | `TreeExpansion` | `expand`, `expand_all`, `_collapse_helper`, `collapse`, `collapse_all` |
| shading.dfy | `TreeShading` | `update_depths`, `update_colours` |
| naming.dfy | `TreeNaming` | `get_path_string` |
| linked_list.dfy | `LinkedLists` | `LinkedList` |
| nested.dfy | `NestedLists` | `add_n`, `nested_list_equal`, `duplicate` |

**Where the code breaks its own size invariant.** The class's representation invariant (a2/tm_trees.py:77-79) says that a node with subtrees has a `data_size` equal to the sum of its subtrees' sizes. `change_size` and `move` re-sum only the subtree of the parent (or of the destination). Every ancestor above it keeps its old size, so the invariant fails there. The model follows the code in `ChangeSizeAsWritten` and `MoveAsWritten`, and proves the stale ancestor on concrete trees. `ChangeSize` and `Move` re-derive sizes from the root and so keep the invariant; see Findings.

**Zero-size children in the hit-test.** A child of size 0 is placed at (0,0,0,0), so the strip its share would have covered selects nothing (`ZeroSizedLastChildLeavesStrip`). Nothing is drawn in that strip either, because `get_rectangles` skips nodes of size 0 (a2/tm_trees.py:179-180). A click there selects nothing because nothing is shown there, so this is not listed as a finding. `LayoutLeavesNoGaps` covers the trees without zero sizes.

## Model

| member | source | states |
|---|---|---|
| Trees.Build | a2/tm_trees.py:98-122 | A new node has no rectangle (0,0,0,0), is collapsed, has depth 0 and the given name, children and colour. A leaf keeps the size it is given. A node with children takes the sum of their sizes. The size and expansion invariants hold for the new node when they hold for its children. |
| Trees.SumSizesNonNegative | a2/tm_trees.py:77-79 | Children whose sizes are all non-negative have a non-negative total. |
| Trees.ParentStep | a2/tm_trees.py:84 | A node below the root is a child of the node at its parent path, at the index its path ends with. |
| TreeLayout.Layout | a2/tm_trees.py:138-169 | A node of size 0 gets (0,0,0,0) and nothing below it changes. Any other node takes the given rectangle. Each of its children gets the slot computed for it, or (0,0,0,0) if the child's size is 0. |
| TreeLayout.SlotsFrom | a2/tm_trees.py:146-169 | Each slot spans the whole rectangle across the split axis. Each slot starts where the previous ones end. A slot other than the last has extent floor(child size × extent / total). The last slot ends at the far edge. |
| TreeLayout.SlotsTile | a2/tm_trees.py:146-169 | Split into columns when wider than tall, otherwise into rows. The first slot starts at the near edge and consecutive slots abut exactly. The last slot ends at the far edge, and the extents add up to the rectangle's extent. |
| TreeLayout.LayoutOnlyPlaces | a2/tm_trees.py:138-169 | Layout changes rectangles and nothing else. |
| TreeDisplay.DrawnExactlyShown | a2/tm_trees.py:171-187 | An entry is drawn exactly when it is the rectangle and colour of a node on the visible frontier. |
| TreeDisplay.ShownIsDrawn | a2/tm_trees.py:179-187 | Every node on the visible frontier has its rectangle and colour drawn. The frontier is the nodes that are named and non-zero from the root down, expanded above, and collapsed themselves. |
| TreeDisplay.DrawnIsShown | a2/tm_trees.py:179-187 | Every drawn entry belongs to some node on the visible frontier. |
| TreeDisplay.TreeAt | a2/tm_trees.py:193-215 | A result is a path along which every rectangle contains the point: x in (left, right] and y in (top, bottom]. A non-empty result is the first index plus the hit-test's result in that child, and no earlier sibling has a hit. No result inside the node's rectangle means the node is expanded, has children, and none of them has a hit. |
| TreeDisplay.FirstHit | a2/tm_trees.py:212-215 | The children are tried in order. The result is the index of the first child with a hit followed by that child's own result. There is no result only when no child has a hit. |
| TreeDisplay.SharedEdgeGoesFirst | a2/tm_trees.py:198-210 | Two rectangles side by side, or one above the other, never both contain a point. A point on their shared edge is contained in the left or upper one. |
| TreeDisplay.HitPathIsFound | a2/tm_trees.py:193-215 | If some path hits the point, the hit-test finds one. |
| TreeDisplay.LayoutLeavesNoGaps | a2/tm_trees.py:138-215 | After layout of a tree with no zero sizes, every point of the rectangle selects some node. |
| TreeDisplay.ColumnsExample | a2/tm_trees.py:146-157 | A 100×50 rectangle over children of sizes 30 and 70 is split into columns of widths 30 and 70. |
| TreeDisplay.SharedEdgeExample | a2/tm_trees.py:198-210 | A point on the edge shared by two side-by-side leaves selects the left one. |
| TreeDisplay.ZeroSizedLastChildLeavesStrip | a2/tm_trees.py:144-169 | A last child of size 0 gets (0,0,0,0) instead of its remainder strip, so a point inside the root selects nothing. |
| TreeSizes.UpdateSizes | a2/tm_trees.py:221-236 | Afterwards every size is non-negative and every node with children has their sum. Only sizes change, and a leaf's size becomes max(0, size). |
| TreeSizes.UpdateSizesAt | a2/tm_trees.py:221-236 | Re-deriving the subtree at a path makes that subtree consistent and changes only sizes. |
| TreeSizes.UpdateSizesIdempotent | a2/tm_trees.py:221-236 | Re-deriving a consistent tree changes nothing. |
| TreeSizes.UpdateSizesKeepsLeaves | a2/tm_trees.py:228-236 | Every leaf keeps its size unless the size is negative; a negative size becomes 0. |
| TreeSizes.UpdateSizesAtKeepsLeaves | a2/tm_trees.py:228-236 | Re-deriving one subtree clamps every leaf inside it at 0 and leaves every leaf outside it as it was. |
| TreeSizes.UpdateSizesAtKeepsOutside | a2/tm_trees.py:221-236 | Re-deriving one subtree leaves the size of every node outside it as it was. |
| TreeSizes.SizesUpdateAt | a2/tm_trees.py:221-236 | Re-deriving the whole tree and then looking at a subtree gives the same result as re-deriving that subtree alone. |
| TreeSizes.Resized | a2/tm_trees.py:244-256 | The new size is at least 1. A positive factor grows a size of at least 1, and a negative one shrinks a size above 1. A zero factor gives max(1, size). Above 1, the change is the ceiling (positive factor) or floor (negative factor) of size × factor. The result is clamped to 1 exactly when size × factor <= 1 - size (positive factor) or size × factor < 2 - size (negative factor). |
| TreeSizes.ResizeLeaf | a2/tm_trees.py:244-256 | Resizing changes sizes only. A leaf gets the new size and a node with children is left alone. No node above it changes size. |
| TreeSizes.ChangeSizeAsWritten | a2/tm_trees.py:238-259 | As written: only sizes change, and the parent's subtree is consistent afterwards. A leaf gets the new size. Every node above the parent keeps its old size. Every other leaf keeps its size, except that inside the parent's subtree a negative size becomes 0. No node outside the parent's subtree changes size, whether it is an ancestor, an uncle or a cousin. |
| TreeSizes.ResizeLeafKeepsOtherLeaves | a2/tm_trees.py:243-256 | Resizing one leaf leaves every other leaf exactly as it was. |
| TreeSizes.ResumKeepsOtherLeaves | a2/tm_trees.py:258-259 | After the parent's subtree is re-summed, every other leaf inside it has its size clamped at 0, and every leaf outside it is unchanged. |
| TreeSizes.ResumKeepsOutside | a2/tm_trees.py:243-259 | Neither the resize nor re-summing the parent changes the size of any node outside the parent's subtree. |
| TreeSizes.ChangeSizeAsWrittenLeavesRootStale | a2/tm_trees.py:258-259 | Doubling a file two levels down leaves the root's old total while the folder's size is 20, which breaks the size invariant. |
| TreeSizes.ChangeSize | a2/tm_trees.py:238-259 | Corrected: afterwards the whole tree satisfies the size invariant and only sizes have changed. |
| TreeSizes.ChangeSizeResizesOnlyTheLeaf | a2/tm_trees.py:244-256 | On a consistent tree, the resized leaf gets the new size and every other leaf keeps its own. |
| TreeSizes.ChangeSizeOfFolderIsNoOp | a2/tm_trees.py:238-244 | On a consistent tree, changing the size of a node with children does nothing. |
| TreeSizes.SizesOkAt | a2/tm_trees.py:77-79 | The size invariant holds in every subtree of a consistent tree. |
| TreeEdits.Without | a2/tm_trees.py:270 | Removing child i keeps the other children in order. |
| TreeEdits.RemoveAt | a2/tm_trees.py:269-270 | The parent loses exactly that child and keeps all its other fields. |
| TreeEdits.DeleteSelf | a2/tm_trees.py:261-274 | Returns True exactly when the node has a parent. A root is left unchanged. |
| TreeEdits.CutPoint | a2/tm_trees.py:269-274 | The cascade stops at the highest ancestor reached through only-children. Every node strictly between it and the deleted node has exactly one child. Its own parent, if any, does not. |
| TreeEdits.DeleteSelfCutsOnce | a2/tm_trees.py:269-274 | The cascade equals one removal of the subtree at the cut point. |
| TreeEdits.DeleteSelfKeepsCutParent | a2/tm_trees.py:271-272 | The cascade leaves the parent of the cut point with at least one child. |
| TreeEdits.RemoveAtShifts | a2/tm_trees.py:389-392 | After the leaf is detached, the destination can be found at the path shifted past the removed index. A destination that was the old parent has one child fewer, and any other keeps its number of children. A destination that is not the old parent or above it is not changed at all. |
| TreeEdits.AppendChild | a2/tm_trees.py:392 | The leaf becomes the destination's new last child. The destination keeps its own fields and its earlier children in order. Removing the new child gives back the tree. |
| TreeEdits.AppendChildFrame | a2/tm_trees.py:392 | Every other node is still found at its path with its own fields and number of children. A node that is not above the destination is not changed at all. |
| TreeEdits.MovedLeafIsBelowRoot | a2/tm_trees.py:386-387 | When `move` acts, the leaf has a parent and is not an ancestor of the destination. |
| TreeEdits.DetachAsWritten | a2/tm_trees.py:389-390 | Apart from sizes, the result is the tree with the leaf removed from its old parent. The old parent's subtree is consistent afterwards. Every node outside that subtree, including every node above the old parent, keeps its old size. |
| TreeEdits.RemoveAtKeepsOutside | a2/tm_trees.py:389 | Taking the leaf out changes no size outside its old parent's subtree. |
| TreeEdits.DetachKeepsOutside | a2/tm_trees.py:389-390 | Removing the leaf and re-summing the old parent changes no size outside the old parent's subtree. |
| TreeEdits.AttachAsWritten | a2/tm_trees.py:391-393 | Apart from sizes, the result is the tree with the leaf appended to the destination. The destination's subtree is consistent afterwards. |
| TreeEdits.AttachResumsBelow | a2/tm_trees.py:393 | After the append and re-sum, every node inside the destination's subtree is consistent. |
| TreeEdits.AttachKeepsApart | a2/tm_trees.py:392-393 | A node that is neither above nor below the destination is exactly as it was. |
| TreeEdits.AttachAsWrittenPlacesLeaf | a2/tm_trees.py:391-393 | The leaf is the destination's last child, with its size clamped at 0. |
| TreeEdits.AttachAsWrittenKeepsSizes | a2/tm_trees.py:393 | Every node outside the destination's subtree keeps its size. |
| TreeEdits.MoveAsWritten | a2/tm_trees.py:382-393 | As written: it does nothing unless the source is a leaf and the destination has children. When it acts, apart from sizes the leaf is taken out of its old parent and appended to the destination: the old parent has one child fewer and the destination one more, unless they are the same node. The leaf is the destination's last child, with its size clamped at 0. Every node above the old parent that is not inside the destination's subtree keeps its old size. Every other leaf sits at its shifted path with its old size; the size is clamped at 0 only when that path lies inside the old parent's or the destination's subtree. The destination's subtree is consistent. So is the old parent's, unless the destination lies strictly inside it. No node outside both subtrees changes size. A folder emptied by the move keeps its old size, raised to 0 if negative. |
| TreeEdits.MoveAsWrittenResums | a2/tm_trees.py:386-393 | The destination's subtree is consistent, the old parent's is too unless the destination lies strictly inside it, and no node outside both changes size. |
| TreeEdits.MoveAsWrittenResumsOldParent | a2/tm_trees.py:389-393 | The old parent's subtree is consistent after the move, unless the destination lies strictly inside it. |
| TreeEdits.MoveAsWrittenKeepsOutside | a2/tm_trees.py:386-393 | No node outside the old parent's and the destination's subtrees changes size. |
| TreeEdits.MoveAsWrittenEmptiedParent | a2/tm_trees.py:228-233 | When the moved leaf was its parent's only child and the destination is elsewhere, the emptied folder keeps its old size, raised to 0 if negative. |
| TreeEdits.OtherLeafKeepsPlace | a2/tm_trees.py:386-388 | When the move acts, taking the leaf out leaves every other leaf unchanged at its shifted path, and that path is not the destination's. |
| TreeEdits.AppendKeepsOtherLeaf | a2/tm_trees.py:391-392 | Appending the moved leaf keeps every other leaf at its shifted path, still a leaf, with the same size. |
| TreeEdits.DetachKeepsOtherLeaf | a2/tm_trees.py:386-389 | After the first half of the move as written, another leaf inside the old parent's subtree has its size clamped at 0, and one outside it is unchanged. |
| TreeEdits.MoveAsWrittenOtherLeaves | a2/tm_trees.py:386-393 | Every other leaf ends at its shifted path. Its size is clamped at 0 if it lies inside the old parent's or the destination's subtree, and unchanged otherwise. |
| TreeEdits.MoveAsWrittenKeepsNegativeLeaf | a2/tm_trees.py:386-393 | A leaf of size -3 beside the old parent's folder keeps the size -3 when a file moves out of that folder into another one. |
| TreeEdits.MoveAsWrittenLeavesAncestorStale | a2/tm_trees.py:386-393 | Moving a file out of a folder two levels down leaves the grandparent's old total while its only child shrinks, which breaks the size invariant. |
| TreeEdits.Move | a2/tm_trees.py:382-393 | Corrected: it does nothing unless the source is a leaf and the destination has children. When it acts, apart from sizes the leaf is taken out of its old parent and appended to the destination: the old parent has one child fewer and the destination one more, unless they are the same node. The whole tree is consistent afterwards. Every other leaf sits at its shifted path with its old size, clamped at 0. A folder emptied by the move keeps its old size, raised to 0 if negative, so every total above it counts that size. |
| TreeEdits.MoveEmptiedParent | a2/tm_trees.py:228-233 | After the corrected move, a folder left without children keeps its old size, raised to 0 if negative. |
| TreeEdits.MoveOtherLeaves | a2/tm_trees.py:382-393 | After the corrected move, every other leaf sits at its shifted path with its old size, clamped at 0. |
| TreeEdits.MovePlacesLeafLast | a2/tm_trees.py:391-393 | The moved leaf is the destination's last child, with its size clamped at 0. |
| TreeExpansion.Expand | a2/tm_trees.py:335-345 | Only expansion flags change. |
| TreeExpansion.ExpandFlags | a2/tm_trees.py:335-345 | Expanding a node with children expands it and every ancestor and leaves other flags alone. Expanding a leaf clears its own flag only. |
| TreeExpansion.ExpandAllNode | a2/tm_trees.py:347-353 | Only flags change, and the node is expanded exactly when it has children. |
| TreeExpansion.ExpandAllNodeFlags | a2/tm_trees.py:347-353 | Every node in the subtree is expanded exactly when it has children. |
| TreeExpansion.ExpandAll | a2/tm_trees.py:347-353 | Only expansion flags change. |
| TreeExpansion.ExpandAllFlags | a2/tm_trees.py:347-353 | Inside the subtree a node is expanded exactly when it has children. A folder also expands its ancestors. Every other flag is kept. |
| TreeExpansion.CollapseNode | a2/tm_trees.py:355-361 | Only flags change and the node is collapsed. |
| TreeExpansion.CollapseNodeFlags | a2/tm_trees.py:355-361 | Every node of the subtree is collapsed. |
| TreeExpansion.Collapse | a2/tm_trees.py:363-368 | Only expansion flags change. |
| TreeExpansion.CollapseFlags | a2/tm_trees.py:363-368 | The parent's whole subtree is collapsed and every other flag is kept. |
| TreeExpansion.CollapseAll | a2/tm_trees.py:370-376 | Only expansion flags change. |
| TreeExpansion.CollapseAllFlags | a2/tm_trees.py:370-376 | Every node of the tree is collapsed. |
| TreeExpansion.ExpansionOpsKeepInvariant | a2/tm_trees.py:85-86 | All four operations keep two rules: a leaf is never expanded, and an expanded node has an expanded parent. |
| TreeExpansion.CollapseAllShowsRoot | a2/tm_trees.py:179-182 | After collapsing everything, the display is the root alone, or nothing for an empty or zero-size tree. |
| TreeExpansion.ExpandAllShowsLeaves | a2/tm_trees.py:347-353 | After expanding everything in a named tree without zero sizes, every leaf is on the visible frontier. |
| TreeExpansion.ExpandAllShowsOnlyLeaves | a2/tm_trees.py:347-353 | After expanding everything, only leaves are on the visible frontier. |
| TreeShading.UpdateDepths | a2/tm_trees.py:280-287 | Only depths change, and the node gets the given depth. |
| TreeShading.UpdateDepthsAt | a2/tm_trees.py:280-287 | The node at path q gets depth d + \|q\|. |
| TreeShading.ChildDepth | a2/tm_trees.py:284-287 | Every child's depth is one more than its parent's. |
| TreeShading.UpdateColours | a2/tm_trees.py:299-310 | Only colours change. |
| TreeShading.UpdateColoursAt | a2/tm_trees.py:306-310 | A node with children gets the grey (depth·step, depth·step, depth·step), and a leaf keeps its colour. |
| TreeShading.ShadesByLevel | a2/tm_trees.py:299-310 | With depths counted from the root, the root folder is black and a folder k levels down is grey k·step. |
| TreeNaming.PathString | a2/tm_trees.py:437-446 | Climbing parent by parent gives the names from the root down, joined by the separator. There is a path string exactly when every node from the root down to the node is named. |
| TreeNaming.NamedTreesHavePathStrings | a2/tm_trees.py:437-446 | In a tree whose names are all present, every node has a path string. |
| LinkedLists.FromSeq | labs/lab5/linked_list.py:47-59 | A new list holds exactly the given items in the given order. |
| LinkedLists.NewListOfItems | labs/lab5/linked_list.py:47-59 | Every list is the new list of its own items. |
| LinkedLists.IsEmpty | labs/lab5/linked_list.py:64-72 | True exactly when the list has no items. |
| LinkedLists.Length | labs/lab5/linked_list.py:149-164 | The count of nodes is the number of items. |
| LinkedLists.GetItem | labs/lab5/linked_list.py:90-107 | An index in range gives that item. An index at or past the end is an IndexError. A negative index is an IndexError on the empty list and trips the assertion otherwise. |
| LinkedLists.InsertAfterItems | labs/lab5/linked_list.py:132-143 | The walk fails exactly when the chain is too short. Otherwise the item lands right after the node the walk stops at. |
| LinkedLists.InsertAsWritten | labs/lab5/linked_list.py:109-143 | As written: it fails, always with an IndexError, exactly when the index is past the end or the index is negative and the list is empty. Otherwise the list gains one item. |
| LinkedLists.InsertAfterLength | labs/lab5/linked_list.py:132-143 | For any number of steps, even a negative one, the walk succeeds exactly when there is a node and the chain is long enough, and it adds one node. |
| LinkedLists.InsertAsWrittenAcceptsNegativeIndex | labs/lab5/linked_list.py:129-143 | As written, inserting 9 at index -1 into [1, 2] gives [1, 9, 2] rather than an IndexError. |
| LinkedLists.InsertAsWrittenNegativeIndex | labs/lab5/linked_list.py:129-143 | As written, a negative index fails on the empty list and puts the item second in any other list. |
| LinkedLists.Insert | labs/lab5/linked_list.py:109-143 | Corrected: it succeeds exactly for 0 <= i <= len. The list then gains one item: x at position i, the items before i in place, and the items from i on one place later. Any other index is an IndexError. |
| LinkedLists.InsertAsWrittenAgrees | labs/lab5/linked_list.py:129-143 | For every non-negative index the code as written gives the corrected result: the same list for 0 <= i <= len, and an IndexError past the end. |
| LinkedLists.ToString | labs/lab5/linked_list.py:74-88 | The string is "[", the items' strings joined by " -> ", then "]". |
| LinkedLists.ToStringShape | labs/lab5/linked_list.py:74-88 | The empty list prints as "[]" and one item prints as itself. Adding an item at the end adds " -> " and its string. |
| NestedLists.AddN | labs/lab6/nested.py:13-27 | An int stays an int and a list stays a list of the same length. Read left to right, the ints of the result are the ints of the input, each plus n. |
| NestedLists.AddNKeepsShape | labs/lab6/nested.py:21-27 | The result has exactly the nesting shape of the input. |
| NestedLists.AddNTwice | labs/lab6/nested.py:13-27 | Adding a and then b is adding a + b. |
| NestedLists.AddNZero | labs/lab6/nested.py:13-27 | Adding 0 changes nothing. |
| NestedLists.AddNUndone | labs/lab6/nested.py:13-27 | Adding -n undoes adding n. |
| NestedLists.NestedListEqual | labs/lab6/nested.py:30-62 | True exactly when the two values are structurally identical. |
| NestedLists.Duplicate | labs/lab6/nested.py:65-100 | The result is always a list. |
| NestedLists.DupItemsAt | labs/lab6/nested.py:93-100 | Element i contributes, at its own place in order, two copies if it is an int and one duplicated sublist if it is a list. |
| NestedLists.DuplicateExamples | labs/lab6/nested.py:74-81 | The four documented examples. |
| NestedLists.UndupDuplicate | labs/lab6/nested.py:65-100 | Reading back a duplicated list gives the list, and a duplicated int gives [int]. |
| NestedLists.UndupDupItems | labs/lab6/nested.py:93-100 | Reading back the duplicated elements of a list gives the elements. |

## Left out

- `FileSystemTree` (a2/tm_trees.py:469-534) builds trees from the file system and supplies the path separator. It is I/O. The separator is a parameter of `TreeNaming.PathString`, and trees are built with `Trees.Build`.
- `duplicate` and `copy_paste` (a2/tm_trees.py:395-416) create leaves by reading a file from disk.
- `get_colour` (a2/tm_trees.py:30-47) draws a random colour. The colour is a parameter of `Trees.Build`.
- `get_suffix` and its `convert_size` (a2/tm_trees.py:517-534) format sizes for display with floating point. `get_full_path` (a2/tm_trees.py:507-510) returns the stored file-system path. All three are part of `FileSystemTree`.
- `max_depth` and `update_colours_and_depths` (a2/tm_trees.py:289-329) are left out:
  - `max_depth` discards its recursive results and returns the root's child count;
  - the loop that picks the colour step never ends when that count is at most 1.
  - `update_colours` is modelled with the step as an explicit parameter instead.
- `tree_traversal`, `is_empty` and `get_parent` are a testing helper and accessors. In the model, emptiness is a `None` name and the parent is `Parent(p)`.
- TreeLayout.SlotsFrom computes each share exactly, as floor(size × extent / total). The source computes floor(size / total × extent) in floating point, and that can fall one below the exact floor even for small sizes. For example, 29 / 100 × 100 is 28.999999999999996 in Python, so the source gives 28 where the model gives 29. The last slot takes the remainder either way, so the slots still tile.
- TreeSizes.Resized takes the factor as an exact fraction num / den with den > 0, because the source's factor is a float. The source rounds the float product `data_size * factor` (a2/tm_trees.py:248-251), and that product can land just past an integer, so the result can differ from the exact one by one. For example, 100 * 0.07 is 7.000000000000001 in Python, so the source grows a leaf of size 100 to 108 where `Resized(100, 7, 100)` gives 107. Likewise factor 1.1 gives 211 where `Resized(100, 11, 10)` gives 210, and factor -0.07 gives 92 where `Resized(100, -7, 100)` gives 93.
- `move` between two different trees is not modelled. Source and destination are paths in one tree.
- A node detached by `delete_self` or `move` keeps its parent reference in the source. The model has no parent references.
- `delete_self` re-sums nothing. The model follows the code, so `TreeEdits.DeleteSelf` makes no size promise.
- A `move` that takes the last child out of a folder leaves that folder childless. Re-deriving a childless node does not re-sum it, so the folder keeps its old size, raised to 0 if negative. Both versions of the move follow this, and `MoveAsWrittenEmptiedParent` and `MoveEmptiedParent` state it. The folder stays in the tree; nothing prunes it.
- TreeNaming.PathString returns `None` where the source would concatenate a missing name and fail.
- TreeSizes.UpdateSizes: the return value of `update_data_sizes` is the node's new `size` field, which the model reads as `u.size`.
- NestedLists.Duplicate: its own contract says only that the result is a list. What it computes is stated by `DupItemsAt` and by the round trip `UndupDuplicate`.
- TreeEdits.DeleteSelf: its own contract gives the return flag and the root case. The shape of the result is stated by `DeleteSelfCutsOnce` and `CutPoint`.
- The linked list's `count`, `index` and `__setitem__` (labs/lab5/linked_list.py:166-223) are left out. The first two pass an item where an index is expected, and the third is an empty stub.
- labs/lab5/time_lists.py, labs/lab1/quiz.py and the `__main__` blocks are timing, printing and lint harnesses.

## Findings

| source | as written | input that shows it | evidently intended | confidence | as-written member | corrected member |
|---|---|---|---|---|---|---|
| a2/tm_trees.py:258-259 | `change_size` re-sums only the parent's subtree | root → folder → file, all of size 10; change the file by factor 1 | the invariant at a2/tm_trees.py:77-79 kept, so every ancestor up to the root is re-summed and the root becomes 20 | not executed | TreeSizes.ChangeSizeAsWrittenLeavesRootStale | TreeSizes.ChangeSize |
| a2/tm_trees.py:386-393 | `move` re-sums only the old parent's and the destination's subtrees | root(15) → x(10) → a(10) → files f(4), h(6); root → b(5) → g(5); move f into b | the invariant at a2/tm_trees.py:77-79 kept, so x and the root are re-summed and x becomes 6 | not executed | TreeEdits.MoveAsWrittenLeavesAncestorStale | TreeEdits.Move |
| labs/lab5/linked_list.py:129-143 | a negative index walks no step and inserts after the first node | `LinkedList([1, 2]).insert(-1, 9)` gives [1 -> 9 -> 2] | IndexError for index < 0, as the docstring at line 112 says | not executed | LinkedLists.InsertAsWrittenAcceptsNegativeIndex | LinkedLists.Insert |

=== FILE: display.dfy ===
/** What the treemap shows and what a click selects: the visible frontier
    (`get_rectangles`, a2/tm_trees.py:171-187) and the hit-test
    (`get_tree_at_position`, a2/tm_trees.py:193-215). The hit-test returns
    the path of the node it finds rather than the node object. */
module TreeDisplay {
  import opened Wrappers
  import opened Trees
  import opened TreeLayout

  /** What the renderer draws for one node: its rectangle and colour. */
  function Entry(t: Tree): (Rect, Colour)
  {
    (t.rect, t.colour)
  }

  // ---------------------------------------------------------------------
  // Visible frontier
  // ---------------------------------------------------------------------

  /** The entries drawn for `t`, in child order: nothing for an empty tree or
      a node of size 0, the node itself when collapsed, and its children's
      entries when expanded. */
  function GetRectangles(t: Tree): seq<(Rect, Colour)>
    decreases t, 1
  {
    if t.size == 0 || t.name.None? then []
    else if !t.expanded then [Entry(t)]
    else RectanglesOf(t.children)
  }

  function RectanglesOf(cs: seq<Tree>): seq<(Rect, Colour)>
    decreases cs, 0
  {
    if cs == [] then [] else GetRectangles(cs[0]) + RectanglesOf(cs[1..])
  }

  /** The node at `q` is on the visible frontier of `t`: every node from the
      root down to it is named and of non-zero size, every node above it is
      expanded, and it is not. */
  predicate Shown(t: Tree, q: Path)
    decreases |q|
  {
    && t.size != 0
    && t.name.Some?
    && if q == [] then !t.expanded
       else t.expanded && q[0] < |t.children| && Shown(t.children[q[0]], q[1..])
  }

  lemma {:induction false} ShownIsValid(t: Tree, q: Path)
    requires Shown(t, q)
    ensures ValidPath(t, q)
    decreases |q|
  {
    if q != [] {
      ShownIsValid(t.children[q[0]], q[1..]);
    }
  }

  /** Every node on the visible frontier is drawn. */
  lemma {:induction false} ShownIsDrawn(t: Tree, q: Path)
    requires ValidPath(t, q) && Shown(t, q)
    ensures Entry(NodeAt(t, q)) in GetRectangles(t)
    decreases |q|
  {
    if q != [] {
      var c := t.children[q[0]];
      ShownIsDrawn(c, q[1..]);
      DrawnAmong(t.children, q[0], Entry(NodeAt(c, q[1..])));
    }
  }

  /** Everything drawn belongs to a node on the visible frontier. */
  lemma {:induction false} DrawnIsShown(t: Tree, e: (Rect, Colour))
    requires e in GetRectangles(t)
    ensures exists q :: ValidPath(t, q) && Shown(t, q) && e == Entry(NodeAt(t, q))
    decreases t
  {
    if !t.expanded {
      assert ValidPath(t, []) && Shown(t, []) && NodeAt(t, []) == t;
    } else {
      var j := DrawnBy(t.children, e);
      var c := t.children[j];
      DrawnIsShown(c, e);
      var q :| ValidPath(c, q) && Shown(c, q) && e == Entry(NodeAt(c, q));
      var q' := [j] + q;
      assert q'[0] == j && q'[1..] == q;
      assert ValidPath(t, q') && Shown(t, q') && e == Entry(NodeAt(t, q'));
    }
  }

  /** What is drawn is exactly the entries of the visible frontier. */
  lemma DrawnExactlyShown(t: Tree, e: (Rect, Colour))
    ensures e in GetRectangles(t) <==> exists q :: ValidPath(t, q) && Shown(t, q) && e == Entry(NodeAt(t, q))
  {
    if e in GetRectangles(t) {
      DrawnIsShown(t, e);
    }
    if exists q :: ValidPath(t, q) && Shown(t, q) && e == Entry(NodeAt(t, q)) {
      var q :| ValidPath(t, q) && Shown(t, q) && e == Entry(NodeAt(t, q));
      ShownIsDrawn(t, q);
    }
  }

  /** The entries of the children are drawn among their parent's. */
  lemma {:induction false} DrawnAmong(cs: seq<Tree>, j: nat, e: (Rect, Colour))
    requires j < |cs| && e in GetRectangles(cs[j])
    ensures e in RectanglesOf(cs)
    decreases j
  {
    if j > 0 {
      assert cs[1..][j - 1] == cs[j];
      DrawnAmong(cs[1..], j - 1, e);
    }
  }

  /** Each entry drawn for a run of siblings is drawn for one of them. */
  lemma {:induction false} DrawnBy(cs: seq<Tree>, e: (Rect, Colour)) returns (j: nat)
    requires e in RectanglesOf(cs)
    ensures j < |cs| && e in GetRectangles(cs[j])
    decreases |cs|
  {
    if e in GetRectangles(cs[0]) {
      j := 0;
    } else {
      var k := DrawnBy(cs[1..], e);
      j := k + 1;
    }
  }

  // ---------------------------------------------------------------------
  // Hit-test
  // ---------------------------------------------------------------------

  /** The point lies in `r`, counting its right and bottom edges but not its
      left and top ones, so a point on an edge shared by two rectangles
      belongs to the one left of or above it. */
  predicate Contains(r: Rect, px: int, py: int)
  {
    r.x < px <= r.x + r.width && r.y < py <= r.y + r.height
  }

  /** Two rectangles side by side, or one above the other, never both hold a
      point, and a point on the edge they share goes to the left or upper one. */
  lemma SharedEdgeGoesFirst(a: Rect, b: Rect, px: int, py: int)
    requires a.width > 0 && a.height > 0
    requires || (a.x + a.width == b.x && a.y == b.y && a.height == b.height)
             || (a.y + a.height == b.y && a.x == b.x && a.width == b.width)
    ensures !(Contains(a, px, py) && Contains(b, px, py))
    ensures (a.x + a.width == b.x && a.y == b.y && a.height == b.height &&
             px == b.x && b.y < py <= b.y + b.height) ==> Contains(a, px, py)
    ensures (a.y + a.height == b.y && a.x == b.x && a.width == b.width &&
             py == b.y && b.x < px <= b.x + b.width) ==> Contains(a, px, py)
  {
  }

  /** Following `q` from `t` stays inside rectangles that contain the point,
      passes only through expanded nodes, and stops at a node that is
      collapsed or a leaf. */
  predicate HitPath(t: Tree, q: Path, px: int, py: int)
    decreases |q|
  {
    && Contains(t.rect, px, py)
    && if q == [] then !t.expanded || |t.children| == 0
       else t.expanded && q[0] < |t.children| && HitPath(t.children[q[0]], q[1..], px, py)
  }

  /** The path of the node selected by a click at (px, py), or `None` when
      nothing is hit. Among the children of an expanded node the first one,
      in order, whose own hit-test succeeds wins. */
  function TreeAt(t: Tree, px: int, py: int): (res: Option<Path>)
    ensures res.Some? ==> ValidPath(t, res.value) && HitPath(t, res.value, px, py)
    ensures res.Some? && res.value != [] ==>
              TreeAt(t.children[res.value[0]], px, py) == Some(res.value[1..])
    ensures res.Some? && res.value != [] ==>
              forall j :: 0 <= j < res.value[0] ==> TreeAt(t.children[j], px, py).None?
    ensures res.None? && Contains(t.rect, px, py) ==>
              t.expanded && |t.children| > 0 &&
              forall j :: 0 <= j < |t.children| ==> TreeAt(t.children[j], px, py).None?
    decreases t, 1
  {
    if !Contains(t.rect, px, py) then None
    else if !t.expanded || |t.children| == 0 then Some([])
    else FirstHit(t.children, px, py)
  }

  /** The first child hit, with the path extended by its index. */
  function FirstHit(cs: seq<Tree>, px: int, py: int): (res: Option<Path>)
    ensures res.Some? ==> res.value != [] && res.value[0] < |cs| &&
                          ValidPath(cs[res.value[0]], res.value[1..]) &&
                          HitPath(cs[res.value[0]], res.value[1..], px, py)
    ensures res.Some? ==> TreeAt(cs[res.value[0]], px, py) == Some(res.value[1..])
    ensures res.Some? ==> forall j :: 0 <= j < res.value[0] ==> TreeAt(cs[j], px, py).None?
    ensures res.None? ==> forall j :: 0 <= j < |cs| ==> TreeAt(cs[j], px, py).None?
    decreases cs, 0
  {
    if cs == [] then None
    else match TreeAt(cs[0], px, py)
      case Some(q) =>
        assert ([0] + q)[1..] == q;
        Some([0] + q)
      case None =>
        match FirstHit(cs[1..], px, py)
        case None => None
        case Some(q) =>
          assert ([q[0] + 1] + q[1..])[1..] == q[1..];
          assert forall j :: 1 <= j <= q[0] ==> cs[j] == cs[1..][j - 1];
          Some([q[0] + 1] + q[1..])
  }

  /** The hit-test succeeds whenever some hit path exists (and, by the
      contract of `TreeAt`, only then). */
  lemma {:induction false} HitPathIsFound(t: Tree, q: Path, px: int, py: int)
    requires HitPath(t, q, px, py)
    ensures TreeAt(t, px, py).Some?
    decreases |q|
  {
    if t.expanded && |t.children| > 0 {
      var c := t.children[q[0]];
      HitPathIsFound(c, q[1..], px, py);
    }
  }

  // ---------------------------------------------------------------------
  // Layout and hit-test together
  // ---------------------------------------------------------------------

  /** Every node of the subtree has non-zero size. */
  predicate AllNonZero(t: Tree)
  {
    t.size != 0 && forall i :: 0 <= i < |t.children| ==> AllNonZero(t.children[i])
  }

  /** No gaps: once a tree whose sizes are all non-zero is laid out in `r`,
      a click anywhere in `r` selects some node, whatever the expansion
      state and however the shares were rounded. */
  lemma {:induction false} LayoutLeavesNoGaps(t: Tree, r: Rect, px: int, py: int)
    requires AllNonZero(t) && Contains(r, px, py)
    ensures TreeAt(Layout(t, r), px, py).Some?
    decreases t
  {
    var u := Layout(t, r);
    if u.expanded && |u.children| > 0 {
      SlotsTile(t, r);
      var slots := Slots(t, r);
      var k := SlotHolding(slots, SplitsIntoColumns(r), r, px, py, 0);
      LayoutLeavesNoGaps(t.children[k], slots[k], px, py);
      var q := TreeAt(u.children[k], px, py).value;
      assert ([k] + q)[1..] == q;
      HitPathIsFound(u, [k] + q, px, py);
    }
  }

  /** Slots that tile `r` along the split axis and span it across leave no
      point of `r` uncovered: some slot from index `k` on holds the point,
      provided the point lies beyond the start of slot `k`. */
  lemma {:induction false} SlotHolding(slots: seq<Rect>, columns: bool, r: Rect, px: int, py: int,
                                      k: nat)
    returns (j: nat)
    requires Contains(r, px, py) && k < |slots|
    requires forall i :: 0 <= i < |slots| ==>
               Pos(slots[i], !columns) == Pos(r, !columns) &&
               Len(slots[i], !columns) == Len(r, !columns)
    requires forall i :: 0 <= i < |slots| - 1 ==>
               Pos(slots[i + 1], columns) == Pos(slots[i], columns) + Len(slots[i], columns)
    requires Pos(slots[|slots| - 1], columns) + Len(slots[|slots| - 1], columns)
             == Pos(r, columns) + Len(r, columns)
    requires Pos(slots[k], columns) < (if columns then px else py)
    ensures k <= j < |slots| && Contains(slots[j], px, py)
    decreases |slots| - k
  {
    var c := if columns then px else py;
    if c <= Pos(slots[k], columns) + Len(slots[k], columns) {
      j := k;
    } else {
      j := SlotHolding(slots, columns, r, px, py, k + 1);
    }
  }

  // ---------------------------------------------------------------------
  // Worked scenarios
  // ---------------------------------------------------------------------

  function Leaf(name: string, size: int): Tree
  {
    Node(Some(name), [], size, ZeroRect, Colour(10, 120, 230), false, 1)
  }

  /** Two leaves of sizes 30 and 70 laid out in a 100 x 50 rectangle, which
      is wider than tall, become the columns (0, 0, 30, 50) and (30, 0, 70, 50). */
  lemma ColumnsExample()
    ensures var root := Node(Some("root"), [Leaf("a", 30), Leaf("b", 70)], 100, ZeroRect,
                             Colour(0, 0, 0), true, 0);
            var u := Layout(root, Rect(0, 0, 100, 50));
            u.children[0].rect == Rect(0, 0, 30, 50) && u.children[1].rect == Rect(30, 0, 70, 50)
  {
    var root := Node(Some("root"), [Leaf("a", 30), Leaf("b", 70)], 100, ZeroRect,
                     Colour(0, 0, 0), true, 0);
    var cs := root.children;
    var r := Rect(0, 0, 100, 50);
    assert SlotsFrom(cs[1..], 100, r, true, 30) == [Rect(30, 0, 70, 50)];
  }

  /** The shared edge x = 10 of two side-by-side 10 x 10 leaves belongs to
      the left one: a click at (10, 5) selects it and one at (11, 5) the right one. */
  lemma SharedEdgeExample()
    ensures var left := Leaf("a", 1).(rect := Rect(0, 0, 10, 10));
            var right := Leaf("b", 1).(rect := Rect(10, 0, 10, 10));
            var root := Node(Some("root"), [left, right], 2, Rect(0, 0, 20, 10),
                             Colour(0, 0, 0), true, 0);
            TreeAt(root, 10, 5) == Some([0]) && TreeAt(root, 11, 5) == Some([1])
  {
    var left := Leaf("a", 1).(rect := Rect(0, 0, 10, 10));
    var right := Leaf("b", 1).(rect := Rect(10, 0, 10, 10));
    var root := Node(Some("root"), [left, right], 2, Rect(0, 0, 20, 10),
                     Colour(0, 0, 0), true, 0);
    assert root.children[0] == left && root.children[1..] == [right];
    assert TreeAt(left, 10, 5) == Some([]);
    assert FirstHit(root.children, 10, 5) == Some([0] + []);
    assert [0] + [] == [0];
    assert TreeAt(left, 11, 5) == None;
    assert TreeAt(right, 11, 5) == Some([]);
    assert FirstHit(root.children[1..], 11, 5) == Some([0] + []);
    assert FirstHit(root.children, 11, 5) == Some([0 + 1] + []);
    assert [0 + 1] + [] == [1];
    assert TreeAt(root, 10, 5) == Some([0]);
    assert TreeAt(root, 11, 5) == Some([1]);
  }

  /** A root over leaves of sizes 1, 1 and 0. */
  const StripRoot := Node(Some("root"), [Leaf("a", 1), Leaf("b", 1), Leaf("c", 0)], 2,
                          ZeroRect, Colour(0, 0, 0), true, 0)

  /** `StripRoot` laid out in a 3 x 1 rectangle. */
  const StripLaidOut := StripRoot.(rect := Rect(0, 0, 3, 1),
                                   children := [Leaf("a", 1).(rect := Rect(0, 0, 1, 1)),
                                                Leaf("b", 1).(rect := Rect(1, 0, 1, 1)),
                                                Leaf("c", 0).(rect := ZeroRect)])

  /** A leaf is simply placed: at the given rectangle, or at `ZeroRect` when
      its size is 0. */
  lemma LayoutOfLeaf(t: Tree, r: Rect)
    requires |t.children| == 0
    ensures Layout(t, r) == t.(rect := if t.size == 0 then ZeroRect else r)
  {
    if t.size != 0 {
      assert Layout(t, r).children == [];
    }
  }

  /** The two unit leaves take the first two columns and the zero-size leaf
      is put at `ZeroRect`. */
  lemma StripLayout()
    ensures Layout(StripRoot, Rect(0, 0, 3, 1)) == StripLaidOut
  {
    var r := Rect(0, 0, 3, 1);
    var cs := StripRoot.children;
    StripSlots();
    var slots := Slots(StripRoot, r);
    var u := Layout(StripRoot, r);
    LayoutOfLeaf(cs[0], slots[0]);
    LayoutOfLeaf(cs[1], slots[1]);
    LayoutOfLeaf(cs[2], slots[2]);
    assert u.children == StripLaidOut.children;
  }

  /** The three columns handed out: widths 1, 1 and the remaining 1. */
  lemma StripSlots()
    ensures Slots(StripRoot, Rect(0, 0, 3, 1)) ==
              [Rect(0, 0, 1, 1), Rect(1, 0, 1, 1), Rect(2, 0, 1, 1)]
  {
    var r := Rect(0, 0, 3, 1);
    var cs := StripRoot.children;
    var s2 := SlotsFrom(cs[2..], 2, r, true, 2);
    assert s2 == [Rect(2, 0, 1, 1)];
    var s1 := SlotsFrom(cs[1..], 2, r, true, 1);
    assert cs[1..][1..] == cs[2..];
    assert s1 == [Rect(1, 0, 1, 1)] + s2;
  }

  /** A zero-size last child is handed the leftover strip of its parent but
      is drawn nowhere, so a click in that strip selects nothing: sizes 1, 1
      and 0 in a 3 x 1 rectangle leave the column 2 < x <= 3 uncovered. */
  lemma ZeroSizedLastChildLeavesStrip()
    ensures var u := Layout(StripRoot, Rect(0, 0, 3, 1));
            Contains(u.rect, 3, 1) && TreeAt(u, 3, 1).None?
  {
    StripLayout();
    var cs := StripLaidOut.children;
    assert !Contains(cs[0].rect, 3, 1) && !Contains(cs[1].rect, 3, 1) && !Contains(cs[2].rect, 3, 1);
    assert cs[1..][1..] == cs[2..] && cs[2..][1..] == [];
    assert FirstHit(cs[2..], 3, 1).None?;
    assert FirstHit(cs[1..], 3, 1).None?;
    assert FirstHit(cs, 3, 1).None?;
  }
}

=== FILE: edits.dfy ===
/** Structural edits of the tree: deleting a node (`delete_self`,
    a2/tm_trees.py:261-274) and moving a leaf under another folder (`move`,
    a2/tm_trees.py:382-393). The source detaches a node by removing it from
    its parent's list of subtrees; here the node is named by its path and the
    edit returns the new tree. */
module TreeEdits {
  import opened Wrappers
  import opened Trees
  import opened TreeSizes
  import opened IntMath

  /** `cs` with the entry at `i` taken out, the others keeping their order. */
  function Without(cs: seq<Tree>, i: nat): (r: seq<Tree>)
    requires i < |cs|
    ensures |r| == |cs| - 1
    ensures forall j :: 0 <= j < |r| ==> r[j] == cs[if j < i then j else j + 1]
  {
    cs[..i] + cs[i + 1..]
  }

  /** The tree with the node at `p` taken out of its parent's children. */
  function RemoveAt(t: Tree, p: Path): (u: Tree)
    requires ValidPath(t, p) && p != []
    ensures ValidPath(t, Parent(p)) && Last(p) < |NodeAt(t, Parent(p)).children|
    ensures ValidPath(u, Parent(p))
    ensures NodeAt(u, Parent(p)).(children := NodeAt(t, Parent(p)).children) == NodeAt(t, Parent(p))
    ensures NodeAt(u, Parent(p)).children == Without(NodeAt(t, Parent(p)).children, Last(p))
  {
    ParentStep(t, p);
    var par := NodeAt(t, Parent(p));
    ReplaceAt(t, Parent(p), par.(children := Without(par.children, Last(p))))
  }

  // ---------------------------------------------------------------------
  // delete_self
  // ---------------------------------------------------------------------

  /** `delete_self` on the node at `p`: the root cannot be deleted; any other
      node is removed from its parent, and a parent left without children is
      deleted in turn. The first component says whether anything was
      deleted. Sizes are not re-derived. */
  function DeleteSelf(t: Tree, p: Path): (res: (bool, Tree))
    requires ValidPath(t, p)
    ensures res.0 <==> p != []
    ensures p == [] ==> res.1 == t
    decreases |p|
  {
    if p == [] then (false, t)
    else
      var t1 := RemoveAt(t, p);
      if |NodeAt(t1, Parent(p)).children| == 0 then (true, DeleteSelf(t1, Parent(p)).1)
      else (true, t1)
  }

  /** The node a deletion at `p` finally cuts off: `p` itself, or its highest
      ancestor below the root that would be left with no children. Every node
      from there down to `p` has exactly one child, and the node above the
      cut point is the root or has other children. */
  function CutPoint(t: Tree, p: Path): (c: Path)
    requires ValidPath(t, p) && p != []
    ensures c <= p && |c| >= 1 && ValidPath(t, c)
    ensures forall j :: |c| <= j < |p| ==>
              ValidPath(t, p[..j]) && |NodeAt(t, p[..j]).children| == 1
    ensures |c| >= 2 ==> ValidPath(t, Parent(c)) && |NodeAt(t, Parent(c)).children| != 1
    decreases |p|
  {
    PrefixValid(t, p, Parent(p));
    if |p| >= 2 && |NodeAt(t, Parent(p)).children| == 1 then
      var c := CutPoint(t, Parent(p));
      assert forall j :: |c| <= j < |p| - 1 ==> Parent(p)[..j] == p[..j];
      PrefixValid(t, p, c);
      c
    else
      p
  }

  /** Two trees whose nodes above `p` have the same numbers of children give
      the same cut point for `p`. */
  lemma {:induction false} CutPointDependsOnCounts(t: Tree, t': Tree, p: Path)
    requires ValidPath(t, p) && ValidPath(t', p) && p != []
    requires forall j :: 0 <= j < |p| ==>
               ValidPath(t, p[..j]) && ValidPath(t', p[..j]) &&
               |NodeAt(t, p[..j]).children| == |NodeAt(t', p[..j]).children|
    ensures CutPoint(t', p) == CutPoint(t, p)
    decreases |p|
  {
    if |p| >= 2 {
      assert Parent(p) == p[..|p| - 1];
      PrefixValid(t, p, Parent(p));
      PrefixValid(t', p, Parent(p));
      assert forall j :: 0 <= j < |Parent(p)| ==> Parent(p)[..j] == p[..j];
      CutPointDependsOnCounts(t, t', Parent(p));
    }
  }

  /** The cascade of `delete_self` amounts to one cut: the result is the tree
      with the node at `CutPoint(t, p)` removed from its parent. */
  lemma {:induction false} DeleteSelfCutsOnce(t: Tree, p: Path)
    requires ValidPath(t, p) && p != []
    ensures DeleteSelf(t, p).1 == RemoveAt(t, CutPoint(t, p))
    decreases |p|
  {
    var pp := Parent(p);
    ParentStep(t, p);
    var par := NodeAt(t, pp);
    var m := par.(children := Without(par.children, Last(p)));
    var t1 := RemoveAt(t, p);
    assert t1 == ReplaceAt(t, pp, m);
    if |NodeAt(t1, pp).children| == 0 && pp != [] {
      DeleteSelfCutsOnce(t1, pp);
      forall j | 0 <= j < |pp|
        ensures ValidPath(t, pp[..j]) && ValidPath(t1, pp[..j])
        ensures |NodeAt(t, pp[..j]).children| == |NodeAt(t1, pp[..j]).children|
      {
        ReplaceKeepsCountsAbove(t, pp, m, pp[..j]);
      }
      CutPointDependsOnCounts(t, t1, pp);
      CutDiscardsEdits(t, pp, m, CutPoint(t, pp));
    }
  }

  /** Whatever was changed inside a subtree, cutting the subtree off gives
      the same tree. */
  lemma CutDiscardsEdits(t: Tree, p: Path, m: Tree, c: Path)
    requires ValidPath(t, p) && c <= p && c != []
    ensures ValidPath(t, c) && ValidPath(ReplaceAt(t, p, m), c)
    ensures RemoveAt(ReplaceAt(t, p, m), c) == RemoveAt(t, c)
  {
    var t1 := ReplaceAt(t, p, m);
    var cp := Parent(c);
    ReplaceAtAbove(t, p, m, c);
    ReplaceAtAbove(t, p, m, cp);
    ParentStep(t, c);
    var above := NodeAt(t, cp);
    var above1 := NodeAt(t1, cp);
    assert above1 == ReplaceAt(above, p[|cp|..], m);
    assert p[|cp|..][0] == Last(c);
    assert Without(above1.children, Last(c)) == Without(above.children, Last(c));
    var cut := above.(children := Without(above.children, Last(c)));
    assert above1.(children := Without(above1.children, Last(c))) == cut;
    ReplaceOverrides(t, p, m, cp, cut);
  }

  /** After a deletion below the root, the node above the cut still has at
      least one child: only the chain of otherwise-childless ancestors goes. */
  lemma DeleteSelfKeepsCutParent(t: Tree, p: Path)
    requires ValidPath(t, p) && |p| >= 1
    ensures var c := CutPoint(t, p);
            var u := DeleteSelf(t, p).1;
            ValidPath(u, Parent(c)) &&
            (|c| >= 2 ==> |NodeAt(u, Parent(c)).children| >= 1)
  {
    DeleteSelfCutsOnce(t, p);
  }

  // ---------------------------------------------------------------------
  // move
  // ---------------------------------------------------------------------

  /** Where the node at `d` sits once the node at `p` has been removed: a
      later sibling of `p`, or anything below one, moves one place left. */
  function Shifted(d: Path, p: Path): (d': Path)
    requires p != []
    ensures |d'| == |d|
    ensures forall j :: 0 <= j < |d| && j != |p| - 1 ==> d'[j] == d[j]
  {
    var k := |p| - 1;
    if |d| > k && d[..k] == Parent(p) && d[k] > Last(p) then d[k := d[k] - 1] else d
  }

  /** Removing the node at `p` leaves the nodes above it where they were,
      each with as many children as before except the parent, which has one
      fewer. */
  lemma RemoveAtAbove(t: Tree, p: Path, d: Path)
    requires ValidPath(t, p) && p != [] && d <= Parent(p)
    ensures ValidPath(t, d) && ValidPath(RemoveAt(t, p), d)
    ensures |NodeAt(RemoveAt(t, p), d).children| ==
              |NodeAt(t, d).children| - (if d == Parent(p) then 1 else 0)
  {
    var pp := Parent(p);
    ParentStep(t, p);
    var par := NodeAt(t, pp);
    var m := par.(children := Without(par.children, Last(p)));
    assert RemoveAt(t, p) == ReplaceAt(t, pp, m);
    ReplaceAtAbove(t, pp, m, d);
    if d == pp {
      assert pp[|d|..] == [];
    }
  }

  /** Removing the node at `p` moves everything below a later sibling one
      place left and leaves it unchanged. */
  lemma RemoveAtSibling(t: Tree, p: Path, j: nat, rest: Path)
    requires ValidPath(t, p) && p != [] && j != Last(p)
    requires ValidPath(t, Parent(p) + [j] + rest)
    ensures var j' := if j > Last(p) then j - 1 else j;
            ValidPath(RemoveAt(t, p), Parent(p) + [j'] + rest) &&
            NodeAt(RemoveAt(t, p), Parent(p) + [j'] + rest) == NodeAt(t, Parent(p) + [j] + rest)
  {
    var pp := Parent(p);
    ParentStep(t, p);
    var par := NodeAt(t, pp);
    var m := par.(children := Without(par.children, Last(p)));
    assert RemoveAt(t, p) == ReplaceAt(t, pp, m);
    var j' := if j > Last(p) then j - 1 else j;
    assert pp + [j] + rest == pp + ([j] + rest);
    assert pp + [j'] + rest == pp + ([j'] + rest);
    AppendPath(t, pp, [j] + rest);
    assert ([j] + rest)[0] == j && ([j] + rest)[1..] == rest;
    assert ([j'] + rest)[0] == j' && ([j'] + rest)[1..] == rest;
    assert m.children[j'] == par.children[j];
    ReplaceAtBelow(t, pp, m, [j'] + rest);
  }

  /** What removing the node at `p` does to a node at `d` that is not inside
      the removed subtree: it is found at `Shifted(d, p)`, with the same
      number of children unless it was the parent (which loses one), and
      unchanged altogether unless it lies above the removed node. */
  lemma RemoveAtShifts(t: Tree, p: Path, d: Path)
    requires ValidPath(t, p) && p != [] && ValidPath(t, d) && !(p <= d)
    ensures ValidPath(RemoveAt(t, p), Shifted(d, p))
    ensures |NodeAt(RemoveAt(t, p), Shifted(d, p)).children| ==
              |NodeAt(t, d).children| - (if d == Parent(p) then 1 else 0)
    ensures !(d <= Parent(p)) ==> NodeAt(RemoveAt(t, p), Shifted(d, p)) == NodeAt(t, d)
  {
    if d <= Parent(p) {
      RemoveAtAbove(t, p, d);
    } else if Parent(p) <= d {
      RemoveAtBelowSibling(t, p, d);
    } else {
      RemoveAtOffPath(t, p, d);
    }
  }

  /** A node below a sibling of the removed one keeps its subtree and moves
      left if the sibling came later. */
  lemma RemoveAtBelowSibling(t: Tree, p: Path, d: Path)
    requires ValidPath(t, p) && p != [] && ValidPath(t, d) && !(p <= d)
    requires Parent(p) <= d && d != Parent(p)
    ensures ValidPath(RemoveAt(t, p), Shifted(d, p))
    ensures NodeAt(RemoveAt(t, p), Shifted(d, p)) == NodeAt(t, d)
  {
    var pp := Parent(p);
    var k := |p| - 1;
    var j := d[k];
    var rest := d[k + 1..];
    assert d == pp + [j] + rest;
    assert d[..k + 1] == pp + [j] && p == pp + [Last(p)];
    RemoveAtSibling(t, p, j, rest);
    var j' := if j > Last(p) then j - 1 else j;
    assert d[..k] == pp;
    assert Shifted(d, p) == pp + [j'] + rest;
  }

  /** A node that is neither above nor below the removed node's parent is
      untouched and stays where it was. */
  lemma RemoveAtOffPath(t: Tree, p: Path, d: Path)
    requires ValidPath(t, p) && p != [] && ValidPath(t, d)
    requires !(Parent(p) <= d) && !(d <= Parent(p))
    ensures Shifted(d, p) == d
    ensures ValidPath(RemoveAt(t, p), d) && NodeAt(RemoveAt(t, p), d) == NodeAt(t, d)
  {
    var pp := Parent(p);
    var k := |p| - 1;
    ParentStep(t, p);
    var par := NodeAt(t, pp);
    var m := par.(children := Without(par.children, Last(p)));
    assert RemoveAt(t, p) == ReplaceAt(t, pp, m);
    ReplaceAtElsewhere(t, pp, m, d);
    assert |d| > k && d[..k] == pp ==> pp <= d;
  }

  /** The tree with `leaf` added as the last child of the node at `d`. The
      node at `d` keeps its own fields and its earlier children, and taking
      the new last child out again gives back the tree. */
  function AppendChild(t: Tree, d: Path, leaf: Tree): (u: Tree)
    requires ValidPath(t, d)
    ensures ValidPath(u, d + [|NodeAt(t, d).children|])
    ensures NodeAt(u, d + [|NodeAt(t, d).children|]) == leaf
    ensures ValidPath(u, d) && |NodeAt(u, d).children| == |NodeAt(t, d).children| + 1
    ensures NodeAt(u, d).children[..|NodeAt(t, d).children|] == NodeAt(t, d).children
    ensures NodeAt(u, d).(children := NodeAt(t, d).children) == NodeAt(t, d)
    ensures RemoveAt(u, d + [|NodeAt(t, d).children|]) == t
  {
    var dst := NodeAt(t, d);
    var k := |dst.children|;
    var n := dst.(children := dst.children + [leaf]);
    var u := ReplaceAt(t, d, n);
    ExtendPath(u, d, k);
    assert n.children[..k] == dst.children;
    RemoveAppended(t, d, n, k);
    u
  }

  /** Taking child `k` out of a node that has just had it appended restores
      the tree. */
  lemma RemoveAppended(t: Tree, d: Path, n: Tree, k: nat)
    requires ValidPath(t, d) && k == |NodeAt(t, d).children|
    requires |n.children| == k + 1 && n.(children := n.children[..k]) == NodeAt(t, d)
    ensures ValidPath(ReplaceAt(t, d, n), d + [k])
    ensures RemoveAt(ReplaceAt(t, d, n), d + [k]) == t
  {
    var u := ReplaceAt(t, d, n);
    ExtendPath(u, d, k);
    var p := d + [k];
    assert Parent(p) == d && Last(p) == k;
    assert Without(n.children, k) == n.children[..k];
    ReplaceOverrides(t, d, n, d, NodeAt(t, d));
    ReplaceAtSame(t, d);
  }

  /** Appending under `d` leaves every other node where it was, with its own
      fields and number of children; a node that is not above `d` is not
      changed at all. */
  lemma AppendChildFrame(t: Tree, d: Path, leaf: Tree, q: Path)
    requires ValidPath(t, d) && ValidPath(t, q) && q != d
    ensures ValidPath(AppendChild(t, d, leaf), q)
    ensures |NodeAt(AppendChild(t, d, leaf), q).children| == |NodeAt(t, q).children|
    ensures NodeAt(AppendChild(t, d, leaf), q).(children := NodeAt(t, q).children) == NodeAt(t, q)
    ensures !(q <= d) ==> NodeAt(AppendChild(t, d, leaf), q) == NodeAt(t, q)
  {
    var dst := NodeAt(t, d);
    var n := dst.(children := dst.children + [leaf]);
    assert AppendChild(t, d, leaf) == ReplaceAt(t, d, n);
    if d <= q {
      var r := q[|d|..];
      assert q == d + r;
      AppendPath(t, d, r);
      ReplaceAtBelow(t, d, n, r);
      assert n.children[r[0]] == dst.children[r[0]];
      assert NodeAt(n, r) == NodeAt(dst, r);
    } else {
      ReplaceAtKeepsOthers(t, d, n, q);
    }
  }

  /** Appending the same leaf at the same place in two trees that agree off
      field `f` gives trees that agree off `f`. */
  lemma BlankAppend(a: Tree, b: Tree, d: Path, leaf: Tree, f: Field)
    requires Blank(a, f) == Blank(b, f) && ValidPath(a, d)
    ensures ValidPath(b, d)
    ensures Blank(AppendChild(a, d, leaf), f) == Blank(AppendChild(b, d, leaf), f)
  {
    BlankPaths(a, b, f, d);
    var da := NodeAt(a, d);
    var db := NodeAt(b, d);
    var na := da.(children := da.children + [leaf]);
    var nb := db.(children := db.children + [leaf]);
    forall j | 0 <= j < |na.children|
      ensures Blank(na.children[j], f) == Blank(nb.children[j], f)
    {
      if j < |da.children| {
        assert Blank(da, f).children[j] == Blank(db, f).children[j];
      }
    }
    assert na.(children := []) == da.(children := []);
    assert nb.(children := []) == db.(children := []);
    BlankOwnFields(da, f);
    BlankOwnFields(db, f);
    BlankFromChildren(na, nb, f);
    BlankReplaceBoth(a, b, d, na, nb, f);
  }

  /** True when `move` acts: the source is a leaf and the destination is not. */
  predicate Moves(t: Tree, src: Path, dst: Path)
    requires ValidPath(t, src) && ValidPath(t, dst)
  {
    |NodeAt(t, src).children| == 0 && |NodeAt(t, dst).children| > 0
  }

  /** When `move` acts, the leaf being moved is not the root and is not on the
      way to the destination. */
  lemma MovedLeafIsBelowRoot(t: Tree, src: Path, dst: Path)
    requires ValidPath(t, src) && ValidPath(t, dst) && Moves(t, src, dst)
    ensures src != [] && !(src <= dst)
  {
    if src <= dst {
      LeafEndsPaths(t, src, dst);
    }
  }

  /** The shape `move` leaves when it acts, whatever it does to sizes. Apart
      from sizes, `u` is the tree with the leaf taken out of its old parent
      and appended to the destination, found at its shifted path. The old
      parent has one child fewer and the destination one more, unless they
      are the same node. */
  predicate MovedShape(t: Tree, src: Path, dst: Path, u: Tree)
    requires ValidPath(t, src) && ValidPath(t, dst)
  {
    && src != [] && !(src <= dst)
    && ValidPath(RemoveAt(t, src), Shifted(dst, src))
    && Blank(u, Size) == Blank(AppendChild(RemoveAt(t, src), Shifted(dst, src), NodeAt(t, src)), Size)
    && ValidPath(t, Parent(src)) && ValidPath(u, Parent(src))
    && |NodeAt(u, Parent(src)).children| ==
         |NodeAt(t, Parent(src)).children| - (if dst == Parent(src) then 0 else 1)
    && ValidPath(u, Shifted(dst, src))
    && |NodeAt(u, Shifted(dst, src)).children| ==
         |NodeAt(t, dst).children| + (if dst == Parent(src) then 0 else 1)
  }

  /** Any tree that agrees off sizes with the detached-and-appended tree has
      the shape of a move. */
  lemma ShapeOfMove(t: Tree, src: Path, dst: Path, u: Tree)
    requires ValidPath(t, src) && ValidPath(t, dst) && Moves(t, src, dst)
    requires src != [] && !(src <= dst)
    requires ValidPath(RemoveAt(t, src), Shifted(dst, src))
    requires Blank(u, Size) ==
               Blank(AppendChild(RemoveAt(t, src), Shifted(dst, src), NodeAt(t, src)), Size)
    ensures MovedShape(t, src, dst, u)
  {
    var pp := Parent(src);
    var d := Shifted(dst, src);
    var t1 := RemoveAt(t, src);
    var t3 := AppendChild(t1, d, NodeAt(t, src));
    RemoveAtShifts(t, src, dst);
    assert d == pp <==> dst == pp;
    if d != pp {
      AppendChildFrame(t1, d, NodeAt(t, src), pp);
    }
    BlankPaths(t3, u, Size, pp);
    BlankPaths(t3, u, Size, d);
  }

  /** When `move` acts, every other leaf of `t` survives the detach
      unchanged at its shifted path, and that path is not the destination's. */
  lemma OtherLeafKeepsPlace(t: Tree, src: Path, dst: Path, q: Path)
    requires ValidPath(t, src) && ValidPath(t, dst) && Moves(t, src, dst)
    requires ValidPath(t, q) && |NodeAt(t, q).children| == 0 && q != src
    ensures src != [] && !(src <= dst) && ValidPath(RemoveAt(t, src), Shifted(dst, src))
    ensures ValidPath(RemoveAt(t, src), Shifted(q, src))
    ensures NodeAt(RemoveAt(t, src), Shifted(q, src)) == NodeAt(t, q)
    ensures Shifted(q, src) != Shifted(dst, src)
  {
    MovedLeafIsBelowRoot(t, src, dst);
    RemoveAtShifts(t, src, dst);
    if src <= q {
      LeafEndsPaths(t, src, q);
    }
    if q <= Parent(src) {
      ParentStep(t, src);
      assert q <= src;
      LeafEndsPaths(t, q, src);
    }
    RemoveAtShifts(t, src, q);
    if dst == Parent(src) {
      assert Shifted(dst, src) == dst;
    }
  }

  /** Appending the moved leaf keeps every other leaf of `t`, at its shifted
      path, as a leaf of the same size. */
  lemma AppendKeepsOtherLeaf(t: Tree, src: Path, dst: Path, x: Tree, q: Path)
    requires ValidPath(t, src) && ValidPath(t, dst) && Moves(t, src, dst)
    requires ValidPath(t, q) && |NodeAt(t, q).children| == 0 && q != src
    requires src != [] && Blank(x, Size) == Blank(RemoveAt(t, src), Size)
    ensures ValidPath(x, Shifted(dst, src)) && ValidPath(x, Shifted(q, src))
    ensures |NodeAt(x, Shifted(q, src)).children| == 0
    ensures var a := AppendChild(x, Shifted(dst, src), NodeAt(t, src));
            ValidPath(a, Shifted(q, src)) && |NodeAt(a, Shifted(q, src)).children| == 0 &&
            NodeAt(a, Shifted(q, src)).size == NodeAt(x, Shifted(q, src)).size
  {
    OtherLeafKeepsPlace(t, src, dst, q);
    BlankPaths(RemoveAt(t, src), x, Size, Shifted(dst, src));
    BlankPaths(RemoveAt(t, src), x, Size, Shifted(q, src));
    AppendChildFrame(x, Shifted(dst, src), NodeAt(t, src), Shifted(q, src));
  }

  /** The first half of `move` as the source writes it: the leaf is taken
      out of its old parent and only the old parent's subtree is re-derived. */
  function DetachAsWritten(t: Tree, src: Path): (u: Tree)
    requires ValidPath(t, src) && src != []
    ensures ValidPath(u, Parent(src))
    ensures Blank(u, Size) == Blank(RemoveAt(t, src), Size)
    ensures forall j :: 0 <= j < |src| - 1 ==>
              ValidPath(t, src[..j]) && ValidPath(u, src[..j]) &&
              NodeAt(u, src[..j]).size == NodeAt(t, src[..j]).size
    ensures SizesOk(NodeAt(u, Parent(src)))
    ensures forall q :: ValidPath(t, q) && !(Parent(src) <= q) ==>
              ValidPath(u, q) && NodeAt(u, q).size == NodeAt(t, q).size
  {
    var pp := Parent(src);
    DetachKeepsOutside(t, src);
    ParentStep(t, src);
    var par := NodeAt(t, pp);
    var m := par.(children := Without(par.children, Last(src)));
    var t1 := RemoveAt(t, src);
    assert t1 == ReplaceAt(t, pp, m);
    ReplaceKeepsSizesAbove(t, pp, m);
    ReplaceKeepsSizesAbove(t1, pp, UpdateSizes(NodeAt(t1, pp)));
    assert forall j :: 0 <= j < |pp| ==> src[..j] == pp[..j];
    UpdateSizesAt(t1, pp)
  }

  /** The second half: the leaf is appended under `d` and only the subtree
      at `d` is re-derived. */
  function AttachAsWritten(t: Tree, d: Path, leaf: Tree): (u: Tree)
    requires ValidPath(t, d)
    ensures Blank(u, Size) == Blank(AppendChild(t, d, leaf), Size)
    ensures ValidPath(u, d) && SizesOk(NodeAt(u, d))
  {
    UpdateSizesAt(AppendChild(t, d, leaf), d)
  }

  /** Taking the leaf out changes no size outside its old parent's subtree. */
  lemma RemoveAtKeepsOutside(t: Tree, src: Path, q: Path)
    requires ValidPath(t, src) && src != [] && ValidPath(t, q) && !(Parent(src) <= q)
    ensures ValidPath(RemoveAt(t, src), q)
    ensures NodeAt(RemoveAt(t, src), q).size == NodeAt(t, q).size
  {
    var pp := Parent(src);
    ParentStep(t, src);
    var par := NodeAt(t, pp);
    var m := par.(children := Without(par.children, Last(src)));
    assert RemoveAt(t, src) == ReplaceAt(t, pp, m);
    ReplaceAtKeepsOthers(t, pp, m, q);
  }

  /** The first half of `move` as written changes no size outside the old
      parent's subtree. */
  lemma DetachKeepsOutside(t: Tree, src: Path)
    requires ValidPath(t, src) && src != []
    ensures ValidPath(RemoveAt(t, src), Parent(src))
    ensures forall q :: ValidPath(t, q) && !(Parent(src) <= q) ==>
              ValidPath(UpdateSizesAt(RemoveAt(t, src), Parent(src)), q) &&
              NodeAt(UpdateSizesAt(RemoveAt(t, src), Parent(src)), q).size == NodeAt(t, q).size
  {
    var t1 := RemoveAt(t, src);
    forall q | ValidPath(t, q) && !(Parent(src) <= q)
      ensures ValidPath(UpdateSizesAt(t1, Parent(src)), q)
      ensures NodeAt(UpdateSizesAt(t1, Parent(src)), q).size == NodeAt(t, q).size
    {
      RemoveAtKeepsOutside(t, src, q);
      UpdateSizesAtKeepsOutside(t1, Parent(src), q);
    }
  }

  /** `move` as the source writes it: the leaf is detached and its old
      parent's subtree re-derived, then it is appended to the destination and
      the destination's subtree re-derived. When it acts, the leaf leaves its
      old parent and becomes the destination's last child (size raised to 0
      if negative), and every node above the old parent that is not inside
      the destination's subtree keeps its old size. */
  function MoveAsWritten(t: Tree, src: Path, dst: Path): (u: Tree)
    requires ValidPath(t, src) && ValidPath(t, dst)
    ensures !Moves(t, src, dst) ==> u == t
    ensures Moves(t, src, dst) ==> MovedShape(t, src, dst, u)
    ensures Moves(t, src, dst) ==>
              LastChildIs(u, Shifted(dst, src), NodeAt(t, src).(size := Max(0, NodeAt(t, src).size)))
    ensures Moves(t, src, dst) ==>
              forall j :: 0 <= j < |src| - 1 && !(Shifted(dst, src) <= src[..j]) ==>
                ValidPath(t, src[..j]) && ValidPath(u, src[..j]) &&
                NodeAt(u, src[..j]).size == NodeAt(t, src[..j]).size
    ensures Moves(t, src, dst) ==>
              forall q :: ValidPath(t, q) && |NodeAt(t, q).children| == 0 && q != src ==>
                ValidPath(u, Shifted(q, src)) &&
                NodeAt(u, Shifted(q, src)).size ==
                  if Parent(src) <= Shifted(q, src) || Shifted(dst, src) <= Shifted(q, src)
                  then Max(0, NodeAt(t, q).size) else NodeAt(t, q).size
    ensures Moves(t, src, dst) ==> ResumsAsWritten(t, src, dst, u)
    ensures Moves(t, src, dst) && |NodeAt(t, Parent(src)).children| == 1 && dst != Parent(src) ==>
              NodeAt(u, Parent(src)).size == Max(0, NodeAt(t, Parent(src)).size)
  {
    if Moves(t, src, dst) then
      MovedLeafIsBelowRoot(t, src, dst);
      RemoveAtShifts(t, src, dst);
      BlankPaths(RemoveAt(t, src), DetachAsWritten(t, src), Size, Shifted(dst, src));
      MoveAsWrittenShape(t, src, dst);
      MoveAsWrittenPlacesLeaf(t, src, dst);
      MoveAsWrittenSkipsAncestors(t, src, dst);
      MoveAsWrittenOtherLeaves(t, src, dst);
      MoveAsWrittenResums(t, src, dst);
      MoveAsWrittenEmptiedParent(t, src, dst);
      AttachAsWritten(DetachAsWritten(t, src), Shifted(dst, src), NodeAt(t, src))
    else t
  }

  lemma MoveAsWrittenShape(t: Tree, src: Path, dst: Path)
    requires ValidPath(t, src) && ValidPath(t, dst) && Moves(t, src, dst)
    requires src != [] && !(src <= dst)
    requires ValidPath(DetachAsWritten(t, src), Shifted(dst, src))
    ensures MovedShape(t, src, dst,
                       AttachAsWritten(DetachAsWritten(t, src), Shifted(dst, src), NodeAt(t, src)))
  {
    var d := Shifted(dst, src);
    var leaf := NodeAt(t, src);
    var t1 := RemoveAt(t, src);
    var t2 := DetachAsWritten(t, src);
    BlankAppend(t2, t1, d, leaf, Size);
    ShapeOfMove(t, src, dst, AttachAsWritten(t2, d, leaf));
  }

  lemma MoveAsWrittenPlacesLeaf(t: Tree, src: Path, dst: Path)
    requires ValidPath(t, src) && ValidPath(t, dst) && Moves(t, src, dst)
    requires src != [] && !(src <= dst)
    requires ValidPath(DetachAsWritten(t, src), Shifted(dst, src))
    ensures LastChildIs(AttachAsWritten(DetachAsWritten(t, src), Shifted(dst, src), NodeAt(t, src)),
                        Shifted(dst, src), NodeAt(t, src).(size := Max(0, NodeAt(t, src).size)))
  {
    AttachAsWrittenPlacesLeaf(DetachAsWritten(t, src), Shifted(dst, src), NodeAt(t, src));
  }

  /** The second half of `move` as written leaves the leaf as the last child
      of the node at `d`. */
  lemma AttachAsWrittenPlacesLeaf(t: Tree, d: Path, leaf: Tree)
    requires ValidPath(t, d) && |leaf.children| == 0
    ensures LastChildIs(AttachAsWritten(t, d, leaf), d, leaf.(size := Max(0, leaf.size)))
  {
    var k := |NodeAt(t, d).children|;
    var t3 := AppendChild(t, d, leaf);
    var n3 := NodeAt(t3, d);
    var z := UpdateSizes(n3);
    assert AttachAsWritten(t, d, leaf) == ReplaceAt(t3, d, z);
    AppendPath(t3, d, [k]);
    SizesUpdateAt(n3, [k]);
    ReplaceAtBelow(t3, d, z, [k]);
  }

  /** The second half of `move` as written leaves every node that is not at
      or below the destination with its old size. */
  lemma AttachAsWrittenKeepsSizes(t: Tree, d: Path, leaf: Tree, q: Path)
    requires ValidPath(t, d) && ValidPath(t, q) && !(d <= q)
    ensures ValidPath(AttachAsWritten(t, d, leaf), q)
    ensures NodeAt(AttachAsWritten(t, d, leaf), q).size == NodeAt(t, q).size
  {
    var t3 := AppendChild(t, d, leaf);
    AppendChildFrame(t, d, leaf, q);
    var z := UpdateSizes(NodeAt(t3, d));
    assert AttachAsWritten(t, d, leaf) == ReplaceAt(t3, d, z);
    ReplaceAtKeepsOthers(t3, d, z, q);
  }

  /** Neither half of `move` as written reaches a node above the old parent
      unless that node is inside the destination's subtree. */
  lemma MoveAsWrittenSkipsAncestors(t: Tree, src: Path, dst: Path)
    requires ValidPath(t, src) && ValidPath(t, dst) && Moves(t, src, dst)
    requires src != [] && !(src <= dst)
    requires ValidPath(DetachAsWritten(t, src), Shifted(dst, src))
    ensures var u := AttachAsWritten(DetachAsWritten(t, src), Shifted(dst, src), NodeAt(t, src));
            forall j :: 0 <= j < |src| - 1 && !(Shifted(dst, src) <= src[..j]) ==>
              ValidPath(t, src[..j]) && ValidPath(u, src[..j]) &&
              NodeAt(u, src[..j]).size == NodeAt(t, src[..j]).size
  {
    var t2 := DetachAsWritten(t, src);
    var d := Shifted(dst, src);
    forall j | 0 <= j < |src| - 1 && !(d <= src[..j])
      ensures ValidPath(t, src[..j]) && ValidPath(AttachAsWritten(t2, d, NodeAt(t, src)), src[..j])
      ensures NodeAt(AttachAsWritten(t2, d, NodeAt(t, src)), src[..j]).size == NodeAt(t, src[..j]).size
    {
      AttachAsWrittenKeepsSizes(t2, d, NodeAt(t, src), src[..j]);
    }
  }

  /** The sizes `move` as written leaves when it acts: the two subtrees it
      re-derives, at the destination and at the old parent, are consistent
      (the old parent's only when the destination is not strictly inside
      it, since re-deriving the destination then leaves the sizes between
      the two stale), and every node outside both keeps its size. */
  ghost predicate ResumsAsWritten(t: Tree, src: Path, dst: Path, u: Tree)
    requires src != []
  {
    && ValidPath(u, Shifted(dst, src)) && SizesOk(NodeAt(u, Shifted(dst, src)))
    && (!(Parent(src) < Shifted(dst, src)) ==>
          ValidPath(u, Parent(src)) && SizesOk(NodeAt(u, Parent(src))))
    && forall q :: ValidPath(t, q) && !(Parent(src) <= q) && !(Shifted(dst, src) <= q) ==>
         ValidPath(u, q) && NodeAt(u, q).size == NodeAt(t, q).size
  }

  lemma MoveAsWrittenResums(t: Tree, src: Path, dst: Path)
    requires ValidPath(t, src) && ValidPath(t, dst) && Moves(t, src, dst)
    ensures src != [] && ValidPath(DetachAsWritten(t, src), Shifted(dst, src))
    ensures ResumsAsWritten(t, src, dst,
                            AttachAsWritten(DetachAsWritten(t, src), Shifted(dst, src), NodeAt(t, src)))
  {
    MoveAsWrittenResumsOldParent(t, src, dst);
    MoveAsWrittenKeepsOutside(t, src, dst);
  }

  /** After `move` as written, the old parent's subtree is consistent unless
      the destination lies strictly inside it: then re-deriving the
      destination leaves the sizes between the two stale. */
  lemma MoveAsWrittenResumsOldParent(t: Tree, src: Path, dst: Path)
    requires ValidPath(t, src) && ValidPath(t, dst) && Moves(t, src, dst)
    ensures src != [] && ValidPath(DetachAsWritten(t, src), Shifted(dst, src))
    ensures var u := AttachAsWritten(DetachAsWritten(t, src), Shifted(dst, src), NodeAt(t, src));
            !(Parent(src) < Shifted(dst, src)) ==>
              ValidPath(u, Parent(src)) && SizesOk(NodeAt(u, Parent(src)))
  {
    MovedLeafIsBelowRoot(t, src, dst);
    RemoveAtShifts(t, src, dst);
    var pp := Parent(src);
    var d := Shifted(dst, src);
    var t2 := DetachAsWritten(t, src);
    BlankPaths(RemoveAt(t, src), t2, Size, d);
    if d <= pp {
      AttachResumsBelow(t2, d, NodeAt(t, src), pp);
    } else if !(pp < d) {
      AttachKeepsApart(t2, d, NodeAt(t, src), pp);
    }
  }

  /** The second half of `move` as written leaves every node inside the
      destination's subtree consistent. */
  lemma AttachResumsBelow(t: Tree, d: Path, leaf: Tree, q: Path)
    requires ValidPath(t, d) && ValidPath(t, q) && d <= q
    ensures ValidPath(AttachAsWritten(t, d, leaf), q)
    ensures SizesOk(NodeAt(AttachAsWritten(t, d, leaf), q))
  {
    var t3 := AppendChild(t, d, leaf);
    var u := AttachAsWritten(t, d, leaf);
    if q != d {
      AppendChildFrame(t, d, leaf, q);
    }
    BlankPaths(t3, u, Size, q);
    var r := q[|d|..];
    assert q == d + r;
    AppendPath(u, d, r);
    SizesOkAt(NodeAt(u, d), r);
  }

  /** The second half of `move` as written leaves a node that is neither
      above nor below the destination exactly as it was. */
  lemma AttachKeepsApart(t: Tree, d: Path, leaf: Tree, q: Path)
    requires ValidPath(t, d) && ValidPath(t, q) && !(d <= q) && !(q <= d)
    ensures ValidPath(AttachAsWritten(t, d, leaf), q)
    ensures NodeAt(AttachAsWritten(t, d, leaf), q) == NodeAt(t, q)
  {
    var t3 := AppendChild(t, d, leaf);
    AppendChildFrame(t, d, leaf, q);
    assert AttachAsWritten(t, d, leaf) == ReplaceAt(t3, d, UpdateSizes(NodeAt(t3, d)));
    ReplaceAtKeepsOthers(t3, d, UpdateSizes(NodeAt(t3, d)), q);
  }

  /** `move` as written changes no size outside the old parent's and the
      destination's subtrees. */
  lemma MoveAsWrittenKeepsOutside(t: Tree, src: Path, dst: Path)
    requires ValidPath(t, src) && ValidPath(t, dst) && Moves(t, src, dst)
    ensures src != [] && ValidPath(DetachAsWritten(t, src), Shifted(dst, src))
    ensures var u := AttachAsWritten(DetachAsWritten(t, src), Shifted(dst, src), NodeAt(t, src));
            forall q :: ValidPath(t, q) && !(Parent(src) <= q) && !(Shifted(dst, src) <= q) ==>
              ValidPath(u, q) && NodeAt(u, q).size == NodeAt(t, q).size
  {
    MovedLeafIsBelowRoot(t, src, dst);
    RemoveAtShifts(t, src, dst);
    var d := Shifted(dst, src);
    var t2 := DetachAsWritten(t, src);
    BlankPaths(RemoveAt(t, src), t2, Size, d);
    forall q | ValidPath(t, q) && !(Parent(src) <= q) && !(d <= q)
      ensures ValidPath(AttachAsWritten(t2, d, NodeAt(t, src)), q)
      ensures NodeAt(AttachAsWritten(t2, d, NodeAt(t, src)), q).size == NodeAt(t, q).size
    {
      AttachAsWrittenKeepsSizes(t2, d, NodeAt(t, src), q);
    }
  }

  /** A folder left empty by `move` as written keeps its old size, raised to
      0 if negative: re-deriving a node without children does not re-sum it. */
  lemma MoveAsWrittenEmptiedParent(t: Tree, src: Path, dst: Path)
    requires ValidPath(t, src) && ValidPath(t, dst) && Moves(t, src, dst)
    ensures src != [] && ValidPath(t, Parent(src))
    ensures ValidPath(DetachAsWritten(t, src), Shifted(dst, src))
    ensures var u := AttachAsWritten(DetachAsWritten(t, src), Shifted(dst, src), NodeAt(t, src));
            |NodeAt(t, Parent(src)).children| == 1 && dst != Parent(src) ==>
              ValidPath(u, Parent(src)) &&
              NodeAt(u, Parent(src)).size == Max(0, NodeAt(t, Parent(src)).size)
  {
    MovedLeafIsBelowRoot(t, src, dst);
    RemoveAtShifts(t, src, dst);
    var pp := Parent(src);
    var d := Shifted(dst, src);
    var t1 := RemoveAt(t, src);
    var t2 := DetachAsWritten(t, src);
    BlankPaths(t1, t2, Size, d);
    if |NodeAt(t, pp).children| == 1 && dst != pp {
      assert t2 == UpdateSizesAt(t1, pp);
      assert |NodeAt(t1, pp).children| == 0;
      UpdateSizesAtKeepsLeaves(t1, pp, pp);
      assert d != pp;
      var t3 := AppendChild(t2, d, NodeAt(t, src));
      AppendChildFrame(t2, d, NodeAt(t, src), pp);
      assert AttachAsWritten(t2, d, NodeAt(t, src)) == UpdateSizesAt(t3, d);
      UpdateSizesAtKeepsLeaves(t3, d, pp);
    }
  }

  /** Every other leaf ends up at its shifted path with its old size, raised
      to 0 if negative when it lies in the old parent's or the destination's
      subtree: the two subtrees the halves of `move` as written re-derive. */
  lemma MoveAsWrittenOtherLeaves(t: Tree, src: Path, dst: Path)
    requires ValidPath(t, src) && ValidPath(t, dst) && Moves(t, src, dst)
    ensures src != [] && ValidPath(DetachAsWritten(t, src), Shifted(dst, src))
    ensures var u := AttachAsWritten(DetachAsWritten(t, src), Shifted(dst, src), NodeAt(t, src));
            forall q :: ValidPath(t, q) && |NodeAt(t, q).children| == 0 && q != src ==>
              ValidPath(u, Shifted(q, src)) &&
              NodeAt(u, Shifted(q, src)).size ==
                if Parent(src) <= Shifted(q, src) || Shifted(dst, src) <= Shifted(q, src)
                then Max(0, NodeAt(t, q).size) else NodeAt(t, q).size
  {
    MovedLeafIsBelowRoot(t, src, dst);
    RemoveAtShifts(t, src, dst);
    var d := Shifted(dst, src);
    var t2 := DetachAsWritten(t, src);
    BlankPaths(RemoveAt(t, src), t2, Size, d);
    var t3 := AppendChild(t2, d, NodeAt(t, src));
    assert AttachAsWritten(t2, d, NodeAt(t, src)) == UpdateSizesAt(t3, d);
    forall q | ValidPath(t, q) && |NodeAt(t, q).children| == 0 && q != src
      ensures ValidPath(UpdateSizesAt(t3, d), Shifted(q, src))
      ensures NodeAt(UpdateSizesAt(t3, d), Shifted(q, src)).size ==
                if Parent(src) <= Shifted(q, src) || d <= Shifted(q, src)
                then Max(0, NodeAt(t, q).size) else NodeAt(t, q).size
    {
      DetachKeepsOtherLeaf(t, src, dst, q);
      AppendKeepsOtherLeaf(t, src, dst, t2, q);
      UpdateSizesAtKeepsLeaves(t3, d, Shifted(q, src));
    }
  }

  /** The first half of `move` as written clamps the other leaves in the old
      parent's subtree at 0 and leaves the rest as they were. */
  lemma DetachKeepsOtherLeaf(t: Tree, src: Path, dst: Path, q: Path)
    requires ValidPath(t, src) && ValidPath(t, dst) && Moves(t, src, dst)
    requires ValidPath(t, q) && |NodeAt(t, q).children| == 0 && q != src
    ensures src != [] && ValidPath(DetachAsWritten(t, src), Shifted(q, src))
    ensures |NodeAt(DetachAsWritten(t, src), Shifted(q, src)).children| == 0
    ensures NodeAt(DetachAsWritten(t, src), Shifted(q, src)).size ==
              if Parent(src) <= Shifted(q, src) then Max(0, NodeAt(t, q).size) else NodeAt(t, q).size
  {
    OtherLeafKeepsPlace(t, src, dst, q);
    var t1 := RemoveAt(t, src);
    assert DetachAsWritten(t, src) == UpdateSizesAt(t1, Parent(src));
    UpdateSizesAtKeepsLeaves(t1, Parent(src), Shifted(q, src));
  }

  // A worked example of the stale ancestor left by `move` as written:
  //   r(15) -> [x(10) -> [a(10) -> [f(4), h(6)]], b(5) -> [g(5)]]
  // with f moved into b.
  const ExF := Node(Some("f"), [], 4, ZeroRect, Colour(1, 1, 1), false, 3)
  const ExH := Node(Some("h"), [], 6, ZeroRect, Colour(1, 1, 1), false, 3)
  const ExG := Node(Some("g"), [], 5, ZeroRect, Colour(1, 1, 1), false, 2)
  const ExA := Node(Some("a"), [ExF, ExH], 10, ZeroRect, Colour(0, 0, 0), false, 2)
  const ExX := Node(Some("x"), [ExA], 10, ZeroRect, Colour(0, 0, 0), false, 1)
  const ExB := Node(Some("b"), [ExG], 5, ZeroRect, Colour(0, 0, 0), false, 1)
  const ExRoot := Node(Some("r"), [ExX, ExB], 15, ZeroRect, Colour(0, 0, 0), false, 0)
  // After f is detached and a re-derived.
  const ExT2 := ExRoot.(children := [ExX.(children := [ExA.(children := [ExH], size := 6)]), ExB])

  lemma ExampleIsConsistent()
    ensures SizesOk(ExRoot)
  {
    SumSizesOfFew(ExF, ExH);
    SumSizesOfFew(ExA, ExA);
    SumSizesOfFew(ExG, ExG);
    SumSizesOfFew(ExX, ExB);
    assert SizesOk(ExA) && SizesOk(ExX) && SizesOk(ExB);
  }

  lemma ExampleDetach()
    ensures RemoveAt(ExRoot, [0, 0, 0]) ==
              ExRoot.(children := [ExX.(children := [ExA.(children := [ExH])]), ExB])
  {
    assert Parent([0, 0, 0]) == [0, 0] && Last([0, 0, 0]) == 0;
    assert [0, 0][1..] == [0] && [0][1..] == [];
    assert NodeAt(ExRoot, [0, 0]) == ExA;
    assert Without([ExF, ExH], 0) == [ExH];
    var a1 := ExA.(children := [ExH]);
    assert ReplaceAt(ExA, [], a1) == a1;
    assert ReplaceAt(ExX, [0], a1) == ExX.(children := [a1]);
    assert ReplaceAt(ExRoot, [0, 0], a1) == ExRoot.(children := [ExX.(children := [a1]), ExB]);
  }

  lemma ExampleResumOldParent()
    ensures var t1 := ExRoot.(children := [ExX.(children := [ExA.(children := [ExH])]), ExB]);
            UpdateSizesAt(t1, [0, 0]) ==
              ExRoot.(children := [ExX.(children := [ExA.(children := [ExH], size := 6)]), ExB])
  {
    var a1 := ExA.(children := [ExH]);
    assert [0, 0][1..] == [0] && [0][1..] == [];
    assert UpdateSizes(ExH) == ExH;
    SumSizesOfFew(ExH, ExH);
    assert UpdateSizes(a1) == a1.(size := 6);
    var t1 := ExRoot.(children := [ExX.(children := [a1]), ExB]);
    assert NodeAt(t1, [0, 0]) == a1;
    assert ReplaceAt(ExX.(children := [a1]), [0], a1.(size := 6)) == ExX.(children := [a1.(size := 6)]);
  }

  lemma ExampleAppend()
    ensures UpdateSizesAt(AppendChild(ExT2, [1], ExF), [1]) ==
              ExT2.(children := [ExT2.children[0], ExB.(children := [ExG, ExF], size := 9)])
  {
    var t2 := ExT2;
    assert [1][1..] == [];
    var b3 := ExB.(children := [ExG, ExF]);
    assert NodeAt(t2, [1]) == ExB;
    assert [ExG] + [ExF] == [ExG, ExF];
    assert AppendChild(t2, [1], ExF) == t2.(children := [t2.children[0], b3]);
    assert UpdateSizes(ExG) == ExG && UpdateSizes(ExF) == ExF;
    SumSizesOfFew(ExG, ExF);
    assert UpdateSizes(b3) == b3.(size := 9);
  }

  /** The whole of `move` as written on the example: f detached from a,
      a re-derived to 6, f appended to b and b re-derived to 9; x and the
      root are not visited. */
  lemma ExampleDetachAndResum()
    ensures UpdateSizesAt(RemoveAt(ExRoot, [0, 0, 0]), [0, 0]) == ExT2
  {
    ExampleDetach();
    ExampleResumOldParent();
  }

  lemma ExampleMoveAsWritten()
    ensures MoveAsWritten(ExRoot, [0, 0, 0], [1]) ==
              ExT2.(children := [ExT2.children[0], ExB.(children := [ExG, ExF], size := 9)])
  {
    assert NodeAt(ExRoot, [0, 0, 0]) == ExF;
    assert Parent([0, 0, 0]) == [0, 0];
    assert Shifted([1], [0, 0, 0]) == [1];
    ExampleDetachAndResum();
    assert DetachAsWritten(ExRoot, [0, 0, 0]) == ExT2;
    ExampleAppend();
  }

  /** A leaf two levels down moved into a sibling folder of its grandparent:
      the folder it left is re-derived, but that folder's own parent keeps the
      old total, so the size invariant is broken. */
  lemma MoveAsWrittenLeavesAncestorStale()
    ensures SizesOk(ExRoot)
    ensures var u := MoveAsWritten(ExRoot, [0, 0, 0], [1]);
            && |u.children| == 2 && |u.children[0].children| == 1
            && u.children[0].size == 10 && u.children[0].children[0].size == 6
            && !SizesOk(u)
  {
    ExampleIsConsistent();
    ExampleMoveAsWritten();
    var a2 := ExA.(children := [ExH], size := 6);
    SumSizesOfFew(a2, a2);
  }

  /** A leaf with a negative size that lies outside both re-derived subtrees
      keeps its negative size under `move` as written (`Move` raises it to
      0): x gains a leaf n of size -3 beside a, and f moves into b. */
  lemma MoveAsWrittenKeepsNegativeLeaf()
    ensures var n := ExF.(name := Some("n"), size := -3);
            var t := ExRoot.(children := [ExX.(children := [ExA, n]), ExB]);
            && ValidPath(MoveAsWritten(t, [0, 0, 0], [1]), [0, 1])
            && NodeAt(MoveAsWritten(t, [0, 0, 0], [1]), [0, 1]).size == -3
  {
    var n := ExF.(name := Some("n"), size := -3);
    var t := ExRoot.(children := [ExX.(children := [ExA, n]), ExB]);
    assert [0, 0, 0][1..] == [0, 0] && [0, 0][1..] == [0] && [0][1..] == [];
    assert [0, 1][1..] == [1] && [1][1..] == [];
    assert NodeAt(t, [0, 0, 0]) == ExF && NodeAt(t, [1]) == ExB && NodeAt(t, [0, 1]) == n;
    assert Moves(t, [0, 0, 0], [1]);
    assert Shifted([0, 1], [0, 0, 0]) == [0, 1] && Shifted([1], [0, 0, 0]) == [1];
    assert Parent([0, 0, 0]) == [0, 0];
  }

  /** `move` with every ancestor brought up to date: once the leaf has been
      detached and appended, sizes are re-derived from the root. */
  function Move(t: Tree, src: Path, dst: Path): (u: Tree)
    requires ValidPath(t, src) && ValidPath(t, dst)
    ensures !Moves(t, src, dst) ==> u == t
    ensures Moves(t, src, dst) ==> MovedShape(t, src, dst, u) && SizesOk(u)
    ensures Moves(t, src, dst) ==>
              forall q :: ValidPath(t, q) && |NodeAt(t, q).children| == 0 && q != src ==>
                ValidPath(u, Shifted(q, src)) &&
                NodeAt(u, Shifted(q, src)).size == Max(0, NodeAt(t, q).size)
    ensures Moves(t, src, dst) && |NodeAt(t, Parent(src)).children| == 1 && dst != Parent(src) ==>
              NodeAt(u, Parent(src)).size == Max(0, NodeAt(t, Parent(src)).size)
  {
    if Moves(t, src, dst) then
      MovedLeafIsBelowRoot(t, src, dst);
      RemoveAtShifts(t, src, dst);
      var t1 := RemoveAt(t, src);
      var u := UpdateSizes(AppendChild(t1, Shifted(dst, src), NodeAt(t, src)));
      ShapeOfMove(t, src, dst, u);
      MoveOtherLeaves(t, src, dst);
      MoveEmptiedParent(t, src, dst);
      u
    else t
  }

  /** A folder left empty by the move keeps its old size, raised to 0 if
      negative, and every total above it is summed from that. */
  lemma MoveEmptiedParent(t: Tree, src: Path, dst: Path)
    requires ValidPath(t, src) && ValidPath(t, dst) && Moves(t, src, dst)
    ensures src != [] && ValidPath(t, Parent(src))
    ensures ValidPath(RemoveAt(t, src), Shifted(dst, src))
    ensures var u := UpdateSizes(AppendChild(RemoveAt(t, src), Shifted(dst, src), NodeAt(t, src)));
            |NodeAt(t, Parent(src)).children| == 1 && dst != Parent(src) ==>
              ValidPath(u, Parent(src)) &&
              NodeAt(u, Parent(src)).size == Max(0, NodeAt(t, Parent(src)).size)
  {
    MovedLeafIsBelowRoot(t, src, dst);
    RemoveAtShifts(t, src, dst);
    var pp := Parent(src);
    var d := Shifted(dst, src);
    var t1 := RemoveAt(t, src);
    if |NodeAt(t, pp).children| == 1 && dst != pp {
      assert |NodeAt(t1, pp).children| == 0;
      assert d != pp;
      var a := AppendChild(t1, d, NodeAt(t, src));
      AppendChildFrame(t1, d, NodeAt(t, src), pp);
      UpdateSizesKeepsLeaves(a, pp);
    }
  }

  /** Every other leaf ends up at its shifted path with its old size, raised
      to 0 if negative. */
  lemma MoveOtherLeaves(t: Tree, src: Path, dst: Path)
    requires ValidPath(t, src) && ValidPath(t, dst) && Moves(t, src, dst)
    ensures src != [] && ValidPath(RemoveAt(t, src), Shifted(dst, src))
    ensures var u := UpdateSizes(AppendChild(RemoveAt(t, src), Shifted(dst, src), NodeAt(t, src)));
            forall q :: ValidPath(t, q) && |NodeAt(t, q).children| == 0 && q != src ==>
              ValidPath(u, Shifted(q, src)) &&
              NodeAt(u, Shifted(q, src)).size == Max(0, NodeAt(t, q).size)
  {
    MovedLeafIsBelowRoot(t, src, dst);
    RemoveAtShifts(t, src, dst);
    var t1 := RemoveAt(t, src);
    var a := AppendChild(t1, Shifted(dst, src), NodeAt(t, src));
    forall q | ValidPath(t, q) && |NodeAt(t, q).children| == 0 && q != src
      ensures ValidPath(UpdateSizes(a), Shifted(q, src))
      ensures NodeAt(UpdateSizes(a), Shifted(q, src)).size == Max(0, NodeAt(t, q).size)
    {
      OtherLeafKeepsPlace(t, src, dst, q);
      AppendKeepsOtherLeaf(t, src, dst, t1, q);
      UpdateSizesKeepsLeaves(a, Shifted(q, src));
    }
  }

  /** After a move the leaf is the last child of the destination, found at
      its shifted path, with its size kept (raised to 0 if negative); the
      destination has gained a child. */
  lemma MovePlacesLeafLast(t: Tree, src: Path, dst: Path)
    requires ValidPath(t, src) && ValidPath(t, dst) && Moves(t, src, dst)
    ensures src != [] && !(src <= dst)
    ensures LastChildIs(Move(t, src, dst), Shifted(dst, src),
                        NodeAt(t, src).(size := Max(0, NodeAt(t, src).size)))
  {
    MovedLeafIsBelowRoot(t, src, dst);
    RemoveAtShifts(t, src, dst);
    UpdateAppended(RemoveAt(t, src), Shifted(dst, src), NodeAt(t, src));
  }

  /** The node at `d` in `u` has children and `x` is the last of them. */
  predicate LastChildIs(u: Tree, d: Path, x: Tree)
  {
    && ValidPath(u, d)
    && |NodeAt(u, d).children| >= 1
    && var last := d + [|NodeAt(u, d).children| - 1];
       ValidPath(u, last) && NodeAt(u, last) == x
  }

  /** Re-deriving sizes after appending a leaf leaves the leaf last under
      its new parent. */
  lemma UpdateAppended(t: Tree, d: Path, leaf: Tree)
    requires ValidPath(t, d) && |leaf.children| == 0
    ensures var k := |NodeAt(t, d).children|;
            var u := UpdateSizes(AppendChild(t, d, leaf));
            ValidPath(u, d) && |NodeAt(u, d).children| == k + 1 &&
            ValidPath(u, d + [k]) && NodeAt(u, d + [k]) == leaf.(size := Max(0, leaf.size))
  {
    var k := |NodeAt(t, d).children|;
    var t3 := AppendChild(t, d, leaf);
    var n3 := NodeAt(t3, d);
    var u := UpdateSizes(t3);
    SizesUpdateAt(t3, d);
    SizesUpdateAt(n3, [k]);
    ExtendPath(u, d, k);
  }
}

=== FILE: expansion.dfy ===
/** Which folders are opened up in the display (a2/tm_trees.py:335-376):
    `expand` opens a folder and every folder above it, `expand_all` opens a
    whole subtree, `collapse` closes the parent's subtree and `collapse_all`
    closes everything. A node is named by its path; the source climbs parent
    references where the model walks down the path. */
module TreeExpansion {
  import opened Wrappers
  import opened Trees
  import opened TreeDisplay

  /** Every node from the root down to the node at `p`, inclusive, opened. */
  function ExpandAlong(t: Tree, p: Path): (u: Tree)
    requires ValidPath(t, p)
    ensures Blank(u, Expansion) == Blank(t, Expansion)
    decreases |p|
  {
    if p == [] then t.(expanded := true)
    else
      var u := t.(expanded := true,
                  children := t.children[p[0] := ExpandAlong(t.children[p[0]], p[1..])]);
      assert forall i :: 0 <= i < |t.children| ==>
               Blank(u, Expansion).children[i] == Blank(t, Expansion).children[i];
      u
  }

  /** `expand` on the node at `p`: a folder is opened together with all its
      ancestors; a leaf is instead marked closed. */
  function Expand(t: Tree, p: Path): (u: Tree)
    requires ValidPath(t, p)
    ensures Blank(u, Expansion) == Blank(t, Expansion)
  {
    var n := NodeAt(t, p);
    if |n.children| > 0 then ExpandAlong(t, p)
    else
      BlankReplace(t, p, n.(expanded := false), Expansion);
      ReplaceAt(t, p, n.(expanded := false))
  }

  /** `expand_all` applied to a detached subtree: every folder opened, every
      leaf closed. */
  function ExpandAllNode(t: Tree): (u: Tree)
    ensures Blank(u, Expansion) == Blank(t, Expansion)
    ensures u.expanded <==> |t.children| > 0
    decreases t
  {
    var cs := seq(|t.children|, i requires 0 <= i < |t.children| => ExpandAllNode(t.children[i]));
    var u := t.(expanded := |t.children| > 0, children := cs);
    assert forall i :: 0 <= i < |t.children| ==>
             Blank(u, Expansion).children[i] == Blank(t, Expansion).children[i];
    u
  }

  /** `expand_all` on the node at `p`: it is expanded first, which opens the
      ancestors when it is a folder, and then every node below it is
      expanded in turn; those later calls re-open only ancestors already
      open, so the result is the expanded node with its subtree opened. */
  function ExpandAll(t: Tree, p: Path): (u: Tree)
    requires ValidPath(t, p)
    ensures Blank(u, Expansion) == Blank(t, Expansion)
  {
    var t1 := Expand(t, p);
    BlankPaths(t, t1, Expansion, p);
    var n := ExpandAllNode(NodeAt(t, p));
    BlankReplace(t1, p, n, Expansion);
    ReplaceAt(t1, p, n)
  }

  /** `_collapse_helper`: the node and everything below it closed. */
  function CollapseNode(t: Tree): (u: Tree)
    ensures Blank(u, Expansion) == Blank(t, Expansion)
    ensures !u.expanded
    decreases t
  {
    var cs := seq(|t.children|, i requires 0 <= i < |t.children| => CollapseNode(t.children[i]));
    var u := t.(expanded := false, children := cs);
    assert forall i :: 0 <= i < |t.children| ==>
             Blank(u, Expansion).children[i] == Blank(t, Expansion).children[i];
    u
  }

  /** `collapse` on the node at `p`: its parent's subtree is closed; at the
      root nothing happens. */
  function Collapse(t: Tree, p: Path): (u: Tree)
    requires ValidPath(t, p)
    ensures Blank(u, Expansion) == Blank(t, Expansion)
  {
    if p == [] then t
    else
      PrefixValid(t, p, Parent(p));
      var n := CollapseNode(NodeAt(t, Parent(p)));
      BlankReplace(t, Parent(p), n, Expansion);
      ReplaceAt(t, Parent(p), n)
  }

  /** `collapse_all`: the whole tree closed, whichever node it is called on. */
  function CollapseAll(t: Tree): (u: Tree)
    ensures Blank(u, Expansion) == Blank(t, Expansion)
  {
    CollapseNode(t)
  }

  // ---------------------------------------------------------------------
  // The flag of every node after each operation
  // ---------------------------------------------------------------------

  lemma {:induction false} ExpandAlongFlags(t: Tree, p: Path, q: Path)
    requires ValidPath(t, p) && ValidPath(t, q)
    ensures ValidPath(ExpandAlong(t, p), q)
    ensures NodeAt(ExpandAlong(t, p), q).expanded == (q <= p || NodeAt(t, q).expanded)
    decreases |q|
  {
    BlankPaths(t, ExpandAlong(t, p), Expansion, q);
    if q != [] && p != [] && q[0] == p[0] {
      ExpandAlongFlags(t.children[p[0]], p[1..], q[1..]);
    }
  }

  /** After `expand`, a folder and all its ancestors are open and every other
      node is as it was; a leaf ends up closed and every other node is as it
      was. */
  lemma ExpandFlags(t: Tree, p: Path, q: Path)
    requires ValidPath(t, p) && ValidPath(t, q)
    ensures ValidPath(Expand(t, p), q)
    ensures NodeAt(Expand(t, p), q).expanded ==
              if |NodeAt(t, p).children| > 0 then q <= p || NodeAt(t, q).expanded
              else q != p && NodeAt(t, q).expanded
  {
    var n := NodeAt(t, p);
    BlankPaths(t, Expand(t, p), Expansion, q);
    if |n.children| > 0 {
      ExpandAlongFlags(t, p, q);
    } else if q != p {
      if q <= p {
        ReplaceAtAbove(t, p, n.(expanded := false), q);
      } else {
        if p <= q {
          LeafEndsPaths(t, p, q);
        }
        ReplaceAtElsewhere(t, p, n.(expanded := false), q);
      }
    }
  }

  /** Inside a subtree opened by `expand_all`, exactly the folders are open. */
  lemma {:induction false} ExpandAllNodeFlags(t: Tree, q: Path)
    requires ValidPath(t, q)
    ensures ValidPath(ExpandAllNode(t), q)
    ensures NodeAt(ExpandAllNode(t), q).expanded <==> |NodeAt(t, q).children| > 0
    decreases |q|
  {
    BlankPaths(t, ExpandAllNode(t), Expansion, q);
    if q != [] {
      ExpandAllNodeFlags(t.children[q[0]], q[1..]);
    }
  }

  /** After `expand_all` on the node at `p`, the folders at and below `p` are
      open and the leaves there closed; above `p`, everything is open when
      `p` is a folder; all other nodes are as they were. */
  lemma ExpandAllFlags(t: Tree, p: Path, q: Path)
    requires ValidPath(t, p) && ValidPath(t, q)
    ensures ValidPath(ExpandAll(t, p), q)
    ensures NodeAt(ExpandAll(t, p), q).expanded ==
              if p <= q then |NodeAt(t, q).children| > 0
              else (q <= p && |NodeAt(t, p).children| > 0) || NodeAt(t, q).expanded
  {
    var t1 := Expand(t, p);
    BlankPaths(t, t1, Expansion, p);
    var n := ExpandAllNode(NodeAt(t, p));
    BlankPaths(t, ExpandAll(t, p), Expansion, q);
    ExpandFlags(t, p, q);
    if p <= q {
      var rest := q[|p|..];
      assert q == p + rest;
      AppendPath(t, p, rest);
      ReplaceAtBelow(t1, p, n, rest);
      ExpandAllNodeFlags(NodeAt(t, p), rest);
    } else if q <= p {
      ReplaceAtAbove(t1, p, n, q);
      BlankPaths(t, t1, Expansion, q);
    } else {
      BlankPaths(t, t1, Expansion, q);
      ReplaceAtElsewhere(t1, p, n, q);
    }
  }

  lemma {:induction false} CollapseNodeFlags(t: Tree, q: Path)
    requires ValidPath(t, q)
    ensures ValidPath(CollapseNode(t), q) && !NodeAt(CollapseNode(t), q).expanded
    decreases |q|
  {
    BlankPaths(t, CollapseNode(t), Expansion, q);
    if q != [] {
      CollapseNodeFlags(t.children[q[0]], q[1..]);
    }
  }

  /** After `collapse` on a node below the root, its parent and everything
      below the parent are closed and all other nodes are as they were. */
  lemma CollapseFlags(t: Tree, p: Path, q: Path)
    requires ValidPath(t, p) && p != [] && ValidPath(t, q)
    ensures ValidPath(Collapse(t, p), q)
    ensures NodeAt(Collapse(t, p), q).expanded == (!(Parent(p) <= q) && NodeAt(t, q).expanded)
  {
    var pp := Parent(p);
    PrefixValid(t, p, pp);
    var n := CollapseNode(NodeAt(t, pp));
    BlankPaths(t, Collapse(t, p), Expansion, q);
    if pp <= q {
      var rest := q[|pp|..];
      assert q == pp + rest;
      AppendPath(t, pp, rest);
      ReplaceAtBelow(t, pp, n, rest);
      CollapseNodeFlags(NodeAt(t, pp), rest);
    } else if q <= pp {
      ReplaceAtAbove(t, pp, n, q);
    } else {
      ReplaceAtElsewhere(t, pp, n, q);
    }
  }

  /** After `collapse_all` no node is open. */
  lemma CollapseAllFlags(t: Tree, q: Path)
    requires ValidPath(t, q)
    ensures ValidPath(CollapseAll(t), q) && !NodeAt(CollapseAll(t), q).expanded
  {
    CollapseNodeFlags(t, q);
  }

  // ---------------------------------------------------------------------
  // The expansion invariant is kept
  // ---------------------------------------------------------------------

  /** Putting a well-formed subtree in place keeps the invariant, provided the
      new subtree is open only where the old one was. */
  lemma {:induction false} ReplaceKeepsExpansionOk(t: Tree, p: Path, n: Tree)
    requires ValidPath(t, p) && ExpansionOk(t) && ExpansionOk(n)
    requires p != [] && n.expanded ==> NodeAt(t, p).expanded
    ensures ExpansionOk(ReplaceAt(t, p, n))
    decreases |p|
  {
    if p != [] {
      ReplaceKeepsExpansionOk(t.children[p[0]], p[1..], n);
    }
  }

  lemma {:induction false} ExpandAlongOk(t: Tree, p: Path)
    requires ValidPath(t, p) && ExpansionOk(t) && |NodeAt(t, p).children| > 0
    ensures ExpansionOk(ExpandAlong(t, p))
    decreases |p|
  {
    if p != [] {
      ExpandAlongOk(t.children[p[0]], p[1..]);
    }
  }

  lemma {:induction false} ExpandAllNodeOk(t: Tree)
    ensures ExpansionOk(ExpandAllNode(t))
    decreases t
  {
    forall i | 0 <= i < |t.children| {
      ExpandAllNodeOk(t.children[i]);
    }
  }

  lemma {:induction false} CollapseNodeOk(t: Tree)
    ensures ExpansionOk(CollapseNode(t))
    decreases t
  {
    forall i | 0 <= i < |t.children| {
      CollapseNodeOk(t.children[i]);
    }
  }

  /** Every expansion operation keeps the invariant that leaves are closed
      and an open node's parent is open. */
  lemma ExpansionOpsKeepInvariant(t: Tree, p: Path)
    requires ValidPath(t, p) && ExpansionOk(t)
    ensures ExpansionOk(Expand(t, p))
    ensures ExpansionOk(ExpandAll(t, p))
    ensures ExpansionOk(Collapse(t, p))
    ensures ExpansionOk(CollapseAll(t))
  {
    var n := NodeAt(t, p);
    if |n.children| > 0 {
      ExpandAlongOk(t, p);
    } else {
      ReplaceKeepsExpansionOk(t, p, n.(expanded := false));
    }
    var t1 := Expand(t, p);
    BlankPaths(t, t1, Expansion, p);
    ExpandFlags(t, p, p);
    ExpandAllNodeOk(n);
    ReplaceKeepsExpansionOk(t1, p, ExpandAllNode(n));
    if p != [] {
      PrefixValid(t, p, Parent(p));
      CollapseNodeOk(NodeAt(t, Parent(p)));
      ReplaceKeepsExpansionOk(t, Parent(p), CollapseNode(NodeAt(t, Parent(p))));
    }
    CollapseNodeOk(t);
  }

  // ---------------------------------------------------------------------
  // What the display then shows
  // ---------------------------------------------------------------------

  /** After `collapse_all` the display shows the root alone. */
  lemma CollapseAllShowsRoot(t: Tree, q: Path)
    ensures Shown(CollapseAll(t), q) <==> q == [] && t.size != 0 && t.name.Some?
    ensures GetRectangles(CollapseAll(t)) ==
              if t.size == 0 || t.name.None? then [] else [Entry(t)]
  {
  }

  /** After `expand_all` on the root of a tree with named nodes of non-zero
      size, every leaf is on the visible frontier ... */
  lemma {:induction false} ExpandAllShowsLeaves(t: Tree, q: Path)
    requires NamesOk(t) && t.name.Some? && AllNonZero(t)
    requires ValidPath(t, q) && |NodeAt(t, q).children| == 0
    ensures Shown(ExpandAllNode(t), q)
    decreases |q|
  {
    if q != [] {
      ExpandAllShowsLeaves(t.children[q[0]], q[1..]);
    }
  }

  /** ... and nothing else is. */
  lemma {:induction false} ExpandAllShowsOnlyLeaves(t: Tree, q: Path)
    requires Shown(ExpandAllNode(t), q)
    ensures ValidPath(t, q) && |NodeAt(t, q).children| == 0
    decreases |q|
  {
    if q != [] {
      ExpandAllShowsOnlyLeaves(t.children[q[0]], q[1..]);
    }
  }
}

=== FILE: intmath.dfy ===
/** Exact integer stand-ins for the source's float rounding: `math.floor`
    and `math.ceil` of a quotient, for divisors of either sign. Dafny's own
    `/` is Euclidean, which agrees with floor only for positive divisors. */
module IntMath {

  /** The largest integer not above a / b. */
  function FloorDiv(a: int, b: int): (q: int)
    requires b != 0
    ensures b > 0 ==> q * b <= a < q * b + b
    ensures b < 0 ==> q * b + b < a <= q * b
  {
    if b > 0 then a / b else (-a) / (-b)
  }

  /** The smallest integer not below a / b. */
  function CeilDiv(a: int, b: int): (q: int)
    requires b > 0
    ensures q * b - b < a <= q * b
  {
    -((-a) / b)
  }

  /** The ceiling of a / b is at most k exactly when a <= k * b. */
  lemma CeilDivAtMost(a: int, b: int, k: int)
    requires b > 0
    ensures CeilDiv(a, b) <= k <==> a <= k * b
  {
    var q := CeilDiv(a, b);
    if q <= k {
      assert q * b <= k * b;
    } else {
      assert (k + 1) * b <= q * b;
    }
  }

  /** The floor of a / b is at most k exactly when a < (k + 1) * b. */
  lemma FloorDivAtMost(a: int, b: int, k: int)
    requires b > 0
    ensures FloorDiv(a, b) <= k <==> a < (k + 1) * b
  {
    var q := FloorDiv(a, b);
    if q <= k {
      assert (q + 1) * b <= (k + 1) * b;
    } else {
      assert (k + 1) * b <= q * b;
    }
  }

  function Max(a: int, b: int): (m: int)
    ensures m >= a && m >= b && (m == a || m == b)
  {
    if a >= b then a else b
  }
}

=== FILE: layout.dfy ===
/** The treemap layout (`update_rectangles`, a2/tm_trees.py:138-169): a node
    of non-zero size takes the rectangle it is given and splits it among its
    children in proportion to their sizes, side by side in columns when the
    rectangle is wider than tall and stacked in rows otherwise. Every child
    but the last gets the floor of its share; the last gets whatever is left
    up to the far edge, so the slots tile the rectangle exactly. The source
    computes the share with float division; here it is the exact floor of
    `size * extent / total`. */
module TreeLayout {
  import opened Trees
  import opened IntMath

  /** The start of `r` along the split axis (x for columns, y for rows). */
  function Pos(r: Rect, columns: bool): int
  {
    if columns then r.x else r.y
  }

  /** The extent of `r` along the split axis (width for columns, height for rows). */
  function Len(r: Rect, columns: bool): int
  {
    if columns then r.width else r.height
  }

  /** The band of `r` from `pos` with extent `ext` along the split axis, and
      all of `r` across it. */
  function Band(r: Rect, columns: bool, pos: int, ext: int): (s: Rect)
    ensures Pos(s, columns) == pos && Len(s, columns) == ext
    ensures Pos(s, !columns) == Pos(r, !columns) && Len(s, !columns) == Len(r, !columns)
  {
    if columns then Rect(pos, r.y, ext, r.height) else Rect(r.x, pos, r.width, ext)
  }

  /** The summed extents of a run of slots along the split axis. */
  function TotalLen(slots: seq<Rect>, columns: bool): int
  {
    if slots == [] then 0 else Len(slots[0], columns) + TotalLen(slots[1..], columns)
  }

  /** The slots handed to the remaining children `cs` of a node of size
      `total` laid out in `r`, the first of them starting at `cur`. */
  function SlotsFrom(cs: seq<Tree>, total: int, r: Rect, columns: bool, cur: int)
    : (slots: seq<Rect>)
    requires total != 0
    ensures |slots| == |cs|
    ensures forall k :: 0 <= k < |slots| ==>
              Pos(slots[k], !columns) == Pos(r, !columns) &&
              Len(slots[k], !columns) == Len(r, !columns)
    ensures forall k :: 0 <= k < |slots| ==>
              Pos(slots[k], columns) == cur + TotalLen(slots[..k], columns)
    ensures forall k :: 0 <= k < |slots| - 1 ==>
              Len(slots[k], columns) == FloorDiv(cs[k].size * Len(r, columns), total)
    ensures |cs| > 0 ==> cur + TotalLen(slots, columns) == Pos(r, columns) + Len(r, columns)
    decreases |cs|
  {
    if cs == [] then []
    else
      var ext := if |cs| > 1 then FloorDiv(cs[0].size * Len(r, columns), total)
                 else Pos(r, columns) + Len(r, columns) - cur;
      var rest := SlotsFrom(cs[1..], total, r, columns, cur + ext);
      var slots := [Band(r, columns, cur, ext)] + rest;
      assert forall k :: 1 <= k <= |slots| ==> slots[..k][1..] == rest[..k - 1];
      assert slots[1..] == rest;
      slots
  }

  /** True when `r` is split into side-by-side columns rather than rows. */
  predicate SplitsIntoColumns(r: Rect)
  {
    r.width > r.height
  }

  /** The slots a node of non-zero size hands to its children when laid out in `r`. */
  function Slots(t: Tree, r: Rect): (slots: seq<Rect>)
    requires t.size != 0
    ensures |slots| == |t.children|
  {
    var columns := SplitsIntoColumns(r);
    SlotsFrom(t.children, t.size, r, columns, Pos(r, columns))
  }

  /** The tree with every rectangle recomputed to fill `r`. A node of size 0
      is placed at `ZeroRect` and its subtree is not visited. */
  function Layout(t: Tree, r: Rect): (u: Tree)
    ensures t.size == 0 ==> u == t.(rect := ZeroRect)
    ensures t.size != 0 ==> u.rect == r && |u.children| == |t.children|
    ensures t.size != 0 ==> forall i :: 0 <= i < |t.children| ==>
              u.children[i].rect == if t.children[i].size == 0 then ZeroRect else Slots(t, r)[i]
    decreases t
  {
    if t.size == 0 then t.(rect := ZeroRect)
    else
      var slots := Slots(t, r);
      t.(rect := r,
         children := seq(|t.children|, i requires 0 <= i < |t.children| =>
                           Layout(t.children[i], slots[i])))
  }

  /** Layout moves rectangles and nothing else. */
  lemma {:induction false} LayoutOnlyPlaces(t: Tree, r: Rect)
    ensures Blank(Layout(t, r), Placement) == Blank(t, Placement)
    decreases t
  {
    var u := Layout(t, r);
    if t.size != 0 {
      var slots := Slots(t, r);
      forall i | 0 <= i < |t.children|
        ensures Blank(u, Placement).children[i] == Blank(t, Placement).children[i]
      {
        LayoutOnlyPlaces(t.children[i], slots[i]);
      }
    }
  }

  /** The slots of a laid-out node tile its rectangle along the split axis:
      they start at its near edge, each begins where the previous one ends,
      the last ends at its far edge, all span it fully across the axis, and
      their extents add up to its extent. */
  lemma SlotsTile(t: Tree, r: Rect)
    requires t.size != 0 && |t.children| > 0
    ensures var columns := SplitsIntoColumns(r);
            var slots := Slots(t, r);
            && Pos(slots[0], columns) == Pos(r, columns)
            && (forall k :: 0 <= k < |slots| - 1 ==>
                  Pos(slots[k + 1], columns) == Pos(slots[k], columns) + Len(slots[k], columns))
            && Pos(slots[|slots| - 1], columns) + Len(slots[|slots| - 1], columns)
               == Pos(r, columns) + Len(r, columns)
            && TotalLen(slots, columns) == Len(r, columns)
  {
    var columns := SplitsIntoColumns(r);
    var slots := Slots(t, r);
    var cur := Pos(r, columns);
    forall k | 0 <= k < |slots| - 1
      ensures Pos(slots[k + 1], columns) == Pos(slots[k], columns) + Len(slots[k], columns)
    {
      TotalLenSnoc(slots[..k + 1], columns);
      assert slots[..k + 1][..k] == slots[..k];
    }
    TotalLenSnoc(slots, columns);
    assert slots[..|slots| - 1][..|slots| - 1] == slots[..|slots| - 1];
  }

  /** Adding up extents from the back gives the same total. */
  lemma {:induction false} TotalLenSnoc(slots: seq<Rect>, columns: bool)
    requires slots != []
    ensures TotalLen(slots, columns)
            == TotalLen(slots[..|slots| - 1], columns) + Len(slots[|slots| - 1], columns)
  {
    if |slots| > 1 {
      TotalLenSnoc(slots[1..], columns);
      assert slots[1..][..|slots| - 2] == slots[..|slots| - 1][1..];
    }
  }
}

=== FILE: linked_list.dfy ===
/** The singly linked list of labs/lab5/linked_list.py: a chain of nodes,
    each holding an item and the rest of the chain. The list's contents are
    the items read from the first node on; every operation is stated against
    that sequence. */
module LinkedLists {
  import opened Wrappers

  /** The nodes from some node onwards (`_Node` with its `next` link). */
  datatype Chain<T> = End | Link(item: T, next: Chain<T>)

  /** `LinkedList`: just the first node, or `End` for the empty list. */
  datatype LinkedList<T> = LinkedList(first: Chain<T>)

  /** How the source's operations fail. */
  datatype Failure = IndexError | AssertionError

  /** The items of a chain, in order. */
  function Items<T>(c: Chain<T>): seq<T>
  {
    if c.End? then [] else [c.item] + Items(c.next)
  }

  /** `LinkedList(items)`: a chain with the given items in the given order. */
  function FromSeq<T>(items: seq<T>): (l: LinkedList<T>)
    ensures Items(l.first) == items
  {
    LinkedList(ChainOf(items))
  }

  function ChainOf<T>(items: seq<T>): (c: Chain<T>)
    ensures Items(c) == items
  {
    if items == [] then End else Link(items[0], ChainOf(items[1..]))
  }

  /** Every list is the new list of its own items. */
  lemma {:induction false} NewListOfItems<T>(l: LinkedList<T>)
    ensures FromSeq(Items(l.first)) == l
    decreases l.first
  {
    if l.first.Link? {
      NewListOfItems(LinkedList(l.first.next));
      assert Items(l.first)[1..] == Items(l.first.next);
    }
  }

  /** `is_empty`. */
  function IsEmpty<T>(l: LinkedList<T>): (b: bool)
    ensures b <==> Items(l.first) == []
  {
    l.first.End?
  }

  /** `__len__`: walks the chain counting nodes. */
  method Length<T>(l: LinkedList<T>) returns (count: nat)
    ensures count == |Items(l.first)|
  {
    count := 0;
    var curr := l.first;
    while curr.Link?
      invariant count + |Items(curr)| == |Items(l.first)|
      decreases curr
    {
      count := count + 1;
      curr := curr.next;
    }
  }

  /** `__getitem__`: walks `index` nodes forward. A negative index on a
      non-empty list trips the assertion that the walk stopped at `index`;
      on the empty list, and for an index past the end, it is an IndexError. */
  method GetItem<T>(l: LinkedList<T>, index: int) returns (r: Result<T, Failure>)
    ensures 0 <= index < |Items(l.first)| ==> r == Ok(Items(l.first)[index])
    ensures index >= |Items(l.first)| ==> r == Err(IndexError)
    ensures index < 0 ==> r == Err(if l.first.End? then IndexError else AssertionError)
  {
    var curr := l.first;
    var currIndex := 0;
    while curr.Link? && currIndex < index
      invariant 0 <= currIndex <= |Items(l.first)|
      invariant Items(curr) == Items(l.first)[currIndex..]
      invariant index >= 0 ==> currIndex <= index
      invariant index < 0 ==> currIndex == 0 && curr == l.first
      decreases curr
    {
      curr := curr.next;
      currIndex := currIndex + 1;
    }
    if !(curr.End? || currIndex == index) {
      return Err(AssertionError);
    }
    if curr.End? {
      return Err(IndexError);
    }
    return Ok(curr.item);
  }

  // ---------------------------------------------------------------------
  // insert
  // ---------------------------------------------------------------------

  /** The walk of `insert` from node `c`, still `steps` nodes short of the
      node to insert after: with no node left it fails, otherwise once no
      steps remain the new item goes right after the current node. */
  function InsertAfter<T>(c: Chain<T>, steps: int, x: T): Option<Chain<T>>
    decreases c
  {
    if c.End? then None
    else if steps <= 0 then Some(Link(c.item, Link(x, c.next)))
    else
      match InsertAfter(c.next, steps - 1, x)
      case None => None
      case Some(rest) => Some(Link(c.item, rest))
  }

  /** Walking a non-negative number of steps inserts after that many
      further nodes, and fails exactly when the chain is too short. */
  lemma {:induction false} InsertAfterItems<T>(c: Chain<T>, steps: nat, x: T)
    ensures InsertAfter(c, steps, x).Some? <==> steps < |Items(c)|
    ensures InsertAfter(c, steps, x).Some? ==>
              Items(InsertAfter(c, steps, x).value) ==
                Items(c)[..steps + 1] + [x] + Items(c)[steps + 1..]
    decreases c
  {
    if c.Link? && steps > 0 {
      InsertAfterItems(c.next, steps - 1, x);
      assert Items(c)[1..] == Items(c.next);
      if InsertAfter(c.next, steps - 1, x).Some? {
        var rest := InsertAfter(c.next, steps - 1, x).value;
        assert Items(c)[..steps + 1] == [c.item] + Items(c.next)[..steps];
        assert Items(c)[steps + 1..] == Items(c.next)[steps..];
      }
    }
  }

  /** `insert` as the source writes it. Index 0 puts the item first;
      otherwise the walk stops at the node before `index`. A negative index
      never takes a step, so on a non-empty list the item lands after the
      first node. It fails, always with an IndexError, exactly when the
      index is past the end or the index is negative and the list empty. */
  function InsertAsWritten<T>(l: LinkedList<T>, index: int, x: T): (r: Result<LinkedList<T>, Failure>)
    ensures r.Err? <==> index > |Items(l.first)| || (index < 0 && l.first.End?)
    ensures r.Err? ==> r.error == IndexError
    ensures r.Ok? ==> |Items(r.value.first)| == |Items(l.first)| + 1
  {
    if index == 0 then Ok(LinkedList(Link(x, l.first)))
    else
      InsertAfterLength(l.first, index - 1, x);
      match InsertAfter(l.first, index - 1, x)
      case None => Err(IndexError)
      case Some(c) => Ok(LinkedList(c))
  }

  /** For any number of steps, even a negative one, the walk succeeds
      exactly when there is a node and the chain is long enough, and then
      adds one node. */
  lemma InsertAfterLength<T>(c: Chain<T>, steps: int, x: T)
    ensures InsertAfter(c, steps, x).Some? <==> c.Link? && steps < |Items(c)|
    ensures InsertAfter(c, steps, x).Some? ==>
              |Items(InsertAfter(c, steps, x).value)| == |Items(c)| + 1
  {
    if steps >= 0 {
      InsertAfterItems(c, steps, x);
    } else if c.Link? {
      assert Items(InsertAfter(c, steps, x).value) == [c.item, x] + Items(c.next);
    }
  }

  /** A negative index slips through: inserting 9 at index -1 into [1, 2]
      gives [1, 9, 2] instead of an IndexError. */
  lemma InsertAsWrittenAcceptsNegativeIndex()
    ensures InsertAsWritten(FromSeq([1, 2]), -1, 9) == Ok(FromSeq([1, 9, 2]))
  {
    assert [1, 2][1..] == [2] && [2][1..] == [];
    assert [1, 9, 2][1..] == [9, 2] && [9, 2][1..] == [2];
  }

  /** `insert` as its documentation describes it: the item is placed at
      `index` for an index in 0..len, and any other index is an IndexError
      that leaves the list as it was. */
  function Insert<T>(l: LinkedList<T>, index: int, x: T): (r: Result<LinkedList<T>, Failure>)
    ensures r.Ok? <==> 0 <= index <= |Items(l.first)|
    ensures r.Err? ==> r.error == IndexError
    ensures r.Ok? ==>
              var s, s' := Items(l.first), Items(r.value.first);
              && |s'| == |s| + 1
              && s'[index] == x
              && (forall i :: 0 <= i < index ==> s'[i] == s[i])
              && (forall i :: index < i < |s'| ==> s'[i] == s[i - 1])
  {
    var s := Items(l.first);
    if 0 <= index <= |s| then Ok(FromSeq(s[..index] + [x] + s[index..])) else Err(IndexError)
  }

  /** For every non-negative index the source's `insert` is the documented
      one: the same list for an index in 0..len, and an IndexError past the
      end. */
  lemma InsertAsWrittenAgrees<T>(l: LinkedList<T>, index: int, x: T)
    requires index >= 0
    ensures InsertAsWritten(l, index, x) == Insert(l, index, x)
    ensures index > |Items(l.first)| ==> InsertAsWritten(l, index, x) == Err(IndexError)
  {
    var s := Items(l.first);
    if index == 0 {
      var u := LinkedList(Link(x, l.first));
      NewListOfItems(u);
      assert s[..0] + [x] + s[0..] == Items(u.first);
    } else {
      InsertAfterItems(l.first, index - 1, x);
      if index <= |s| {
        var u := LinkedList(InsertAfter(l.first, index - 1, x).value);
        NewListOfItems(u);
      }
    }
  }

  /** For any negative index the source's `insert` fails only on the empty
      list; on any other list it puts the item second. */
  lemma InsertAsWrittenNegativeIndex<T>(l: LinkedList<T>, index: int, x: T)
    requires index < 0
    ensures l.first.End? ==> InsertAsWritten(l, index, x) == Err(IndexError)
    ensures l.first.Link? ==>
              InsertAsWritten(l, index, x).Ok? &&
              Items(InsertAsWritten(l, index, x).value.first) ==
                Items(l.first)[..1] + [x] + Items(l.first)[1..]
  {
    if l.first.Link? {
      assert Items(l.first)[..1] == [l.first.item];
      assert Items(l.first)[1..] == Items(l.first.next);
    }
  }

  // ---------------------------------------------------------------------
  // __str__
  // ---------------------------------------------------------------------

  /** `sep.join(parts)`. */
  function Join(sep: string, parts: seq<string>): string
  {
    if parts == [] then ""
    else if |parts| == 1 then parts[0]
    else parts[0] + sep + Join(sep, parts[1..])
  }

  /** Joining one more part at the end adds the separator and that part. */
  lemma {:induction false} JoinSnoc(sep: string, parts: seq<string>, s: string)
    requires parts != []
    ensures Join(sep, parts + [s]) == Join(sep, parts) + sep + s
    decreases |parts|
  {
    if |parts| == 1 {
      assert (parts + [s])[1..] == [s];
    } else {
      assert (parts + [s])[1..] == parts[1..] + [s];
      JoinSnoc(sep, parts[1..], s);
    }
  }

  /** Each item shown with `show`, the item type's own `str`. */
  function ShowAll<T>(show: T -> string, items: seq<T>): (r: seq<string>)
    ensures |r| == |items| && forall i :: 0 <= i < |items| ==> r[i] == show(items[i])
  {
    seq(|items|, i requires 0 <= i < |items| => show(items[i]))
  }

  /** `__str__`: the items shown and joined by " -> " inside brackets. */
  method ToString<T>(l: LinkedList<T>, show: T -> string) returns (s: string)
    ensures s == "[" + Join(" -> ", ShowAll(show, Items(l.first))) + "]"
  {
    var parts: seq<string> := [];
    var curr := l.first;
    ghost var k := 0;
    while curr.Link?
      invariant 0 <= k <= |Items(l.first)|
      invariant Items(curr) == Items(l.first)[k..]
      invariant parts == ShowAll(show, Items(l.first)[..k])
      decreases curr
    {
      parts := parts + [show(curr.item)];
      curr := curr.next;
      k := k + 1;
    }
    assert Items(l.first)[..k] == Items(l.first);
    s := "[" + Join(" -> ", parts) + "]";
  }

  /** The empty list prints as "[]", and a list's string ends with its last
      item one separator after the string of the list without it. */
  lemma ToStringShape<T>(show: T -> string, items: seq<T>, x: T)
    ensures Join(" -> ", ShowAll(show, [])) == ""
    ensures Join(" -> ", ShowAll(show, [x])) == show(x)
    ensures items != [] ==>
              Join(" -> ", ShowAll(show, items + [x])) ==
                Join(" -> ", ShowAll(show, items)) + " -> " + show(x)
  {
    if items != [] {
      assert ShowAll(show, items + [x]) == ShowAll(show, items) + [show(x)];
      JoinSnoc(" -> ", ShowAll(show, items), show(x));
    }
  }
}

=== FILE: naming.dfy ===
/** The displayed name of a node (`get_path_string`,
    a2/tm_trees.py:437-446): the names from the root down to the node, joined
    by the separator. The separator is a parameter: it comes from the file
    system subclass, which is not part of this model. */
module TreeNaming {
  import opened Wrappers
  import opened Trees

  /** `get_path_string` as the source computes it, climbing from the node:
      the root gives its own name, and any other node its parent's string,
      the separator and its name. The result is `None` where the source
      would return `None` (a nameless root) or fail on a missing name, which
      is exactly when some node from the root down to it is nameless;
      otherwise it is the names from the root down, joined by `sep`. */
  function PathString(t: Tree, p: Path, sep: string): (r: Option<string>)
    requires ValidPath(t, p)
    ensures r.Some? <==> NamedAlong(t, p)
    ensures NamedAlong(t, p) ==> r == Some(JoinNames(t, p, sep))
    decreases |p|
  {
    if p == [] then t.name
    else
      PathStep(t, p, sep);
      match (PathString(t, Parent(p), sep), NodeAt(t, p).name)
      case (Some(above), Some(name)) => Some(above + sep + name)
      case _ => None
  }

  /** One step up: the path to a node is named exactly when the path to its
      parent is and the node itself is, and then its joined names are the
      parent's, the separator and its own name. */
  lemma PathStep(t: Tree, p: Path, sep: string)
    requires ValidPath(t, p) && p != []
    ensures ValidPath(t, Parent(p))
    ensures NamedAlong(t, p) <==> NamedAlong(t, Parent(p)) && NodeAt(t, p).name.Some?
    ensures NamedAlong(t, p) ==>
              JoinNames(t, p, sep) == JoinNames(t, Parent(p), sep) + sep + NodeAt(t, p).name.value
  {
    ParentStep(t, p);
    NamedAlongSnoc(t, Parent(p), Last(p));
    if NamedAlong(t, p) {
      JoinNamesSnoc(t, p, sep);
    }
  }

  /** Every node from the root down to the node at `p` has a name. */
  predicate NamedAlong(t: Tree, p: Path)
    decreases |p|
  {
    t.name.Some? && (p == [] || (p[0] < |t.children| && NamedAlong(t.children[p[0]], p[1..])))
  }

  /** The names from the root down to the node at `p`, joined by `sep`,
      built from the root downwards. */
  function JoinNames(t: Tree, p: Path, sep: string): string
    requires NamedAlong(t, p)
    decreases |p|
  {
    if p == [] then t.name.value
    else t.name.value + sep + JoinNames(t.children[p[0]], p[1..], sep)
  }

  lemma {:induction false} NamedAlongValid(t: Tree, p: Path)
    requires NamedAlong(t, p)
    ensures ValidPath(t, p) && NodeAt(t, p).name.Some?
    decreases |p|
  {
    if p != [] {
      NamedAlongValid(t.children[p[0]], p[1..]);
    }
  }

  lemma {:induction false} NamedAlongParent(t: Tree, p: Path)
    requires NamedAlong(t, p) && p != []
    ensures NamedAlong(t, Parent(p))
    decreases |p|
  {
    if |p| > 1 {
      assert Parent(p)[1..] == Parent(p[1..]);
      NamedAlongParent(t.children[p[0]], p[1..]);
    }
  }

  /** Joining from the root down and then adding the last name is joining the
      whole way down. */
  lemma {:induction false} JoinNamesSnoc(t: Tree, p: Path, sep: string)
    requires NamedAlong(t, p) && p != []
    ensures NamedAlong(t, Parent(p)) && ValidPath(t, p) && NodeAt(t, p).name.Some?
    ensures JoinNames(t, p, sep) == JoinNames(t, Parent(p), sep) + sep + NodeAt(t, p).name.value
    decreases |p|
  {
    NamedAlongParent(t, p);
    NamedAlongValid(t, p);
    if |p| > 1 {
      assert Parent(p)[1..] == Parent(p[1..]);
      JoinNamesSnoc(t.children[p[0]], p[1..], sep);
    } else {
      assert p[1..] == [];
    }
  }

  /** Extending a named path by one child keeps it named exactly when that
      child is named. */
  lemma {:induction false} NamedAlongSnoc(t: Tree, p: Path, i: nat)
    requires ValidPath(t, p) && i < |NodeAt(t, p).children|
    ensures NamedAlong(t, p + [i]) <==>
              NamedAlong(t, p) && NodeAt(t, p).children[i].name.Some?
    decreases |p|
  {
    if p == [] {
      assert [] + [i] == [i] && [i][1..] == [];
    } else {
      assert (p + [i])[0] == p[0] && (p + [i])[1..] == p[1..] + [i];
      NamedAlongSnoc(t.children[p[0]], p[1..], i);
    }
  }

  /** In a tree whose names are all present (everything but the empty tree),
      every node has a path string. */
  lemma {:induction false} NamedTreesHavePathStrings(t: Tree, p: Path, sep: string)
    requires NamesOk(t) && t.name.Some? && ValidPath(t, p)
    ensures NamedAlong(t, p)
    ensures PathString(t, p, sep) == Some(JoinNames(t, p, sep))
    decreases |p|
  {
    if p != [] {
      NamedTreesHavePathStrings(t.children[p[0]], p[1..], sep);
    }
  }
}

=== FILE: nested.dfy ===
/** The nested-list recursions of labs/lab6/nested.py over values that are
    either an int or a list of such values. */
module NestedLists {

  /** An int, or a list of nested values (Python's `Union[int, list]`). */
  datatype Nested = Int(n: int) | List(items: seq<Nested>)

  // ---------------------------------------------------------------------
  // add_n
  // ---------------------------------------------------------------------

  /** `add_n`: `n` added to every int, the nesting kept. */
  function AddN(obj: Nested, n: int): (r: Nested)
    ensures obj.Int? <==> r.Int?
    ensures obj.List? ==> |r.items| == |obj.items|
    ensures Ints(r) == AddToAll(Ints(obj), n)
    decreases obj
  {
    match obj
    case Int(k) => Int(k + n)
    case List(xs) =>
      var ys := seq(|xs|, i requires 0 <= i < |xs| => AddN(xs[i], n));
      IntsOfAdded(xs, ys, n);
      List(ys)
  }

  /** The ints of a nested value, left to right. */
  function Ints(obj: Nested): seq<int>
    decreases obj, 1
  {
    match obj
    case Int(k) => [k]
    case List(xs) => IntsOf(xs)
  }

  function IntsOf(xs: seq<Nested>): seq<int>
    decreases xs, 0
  {
    if xs == [] then [] else Ints(xs[0]) + IntsOf(xs[1..])
  }

  /** `s` with `n` added to each element. */
  function AddToAll(s: seq<int>, n: int): (r: seq<int>)
    ensures |r| == |s| && forall i :: 0 <= i < |s| ==> r[i] == s[i] + n
  {
    seq(|s|, i requires 0 <= i < |s| => s[i] + n)
  }

  /** Lists whose elements pair up, each one's ints being the other's plus
      `n`, have the same relation between their ints. */
  lemma {:induction false} IntsOfAdded(xs: seq<Nested>, ys: seq<Nested>, n: int)
    requires |ys| == |xs|
    requires forall i :: 0 <= i < |xs| ==> Ints(ys[i]) == AddToAll(Ints(xs[i]), n)
    ensures IntsOf(ys) == AddToAll(IntsOf(xs), n)
    decreases |xs|
  {
    if xs != [] {
      IntsOfAdded(xs[1..], ys[1..], n);
      var a := Ints(xs[0]);
      var b := IntsOf(xs[1..]);
      assert AddToAll(a + b, n) == AddToAll(a, n) + AddToAll(b, n);
    }
  }

  /** Two values with the same nesting: ints opposite ints, and lists of the
      same length whose elements pair up the same way. */
  predicate SameShape(a: Nested, b: Nested)
    decreases a
  {
    match a
    case Int(_) => b.Int?
    case List(xs) =>
      b.List? && |xs| == |b.items| &&
      forall i :: 0 <= i < |xs| ==> SameShape(xs[i], b.items[i])
  }

  /** `add_n` keeps the nesting shape ... */
  lemma {:induction false} AddNKeepsShape(obj: Nested, n: int)
    ensures SameShape(AddN(obj, n), obj)
    decreases obj
  {
    if obj.List? {
      forall i | 0 <= i < |obj.items| {
        AddNKeepsShape(obj.items[i], n);
      }
    }
  }

  /** ... and adding `a` then `b` is adding `a + b`, so adding `-n` undoes
      adding `n`. */
  lemma {:induction false} AddNTwice(obj: Nested, a: int, b: int)
    ensures AddN(AddN(obj, a), b) == AddN(obj, a + b)
    decreases obj
  {
    if obj.List? {
      forall i | 0 <= i < |obj.items|
        ensures AddN(AddN(obj.items[i], a), b) == AddN(obj.items[i], a + b)
      {
        AddNTwice(obj.items[i], a, b);
      }
      assert AddN(AddN(obj, a), b).items == AddN(obj, a + b).items;
    }
  }

  lemma {:induction false} AddNZero(obj: Nested)
    ensures AddN(obj, 0) == obj
    decreases obj
  {
    if obj.List? {
      forall i | 0 <= i < |obj.items| ensures AddN(obj.items[i], 0) == obj.items[i] {
        AddNZero(obj.items[i]);
      }
      assert AddN(obj, 0).items == obj.items;
    }
  }

  lemma AddNUndone(obj: Nested, n: int)
    ensures AddN(AddN(obj, n), -n) == obj
  {
    AddNTwice(obj, n, -n);
    AddNZero(obj);
  }

  // ---------------------------------------------------------------------
  // nested_list_equal
  // ---------------------------------------------------------------------

  /** `nested_list_equal`: ints compare by value, an int never equals a
      list, lists of different lengths differ, and otherwise the elements are
      compared index by index until one pair differs. The answer is exactly
      structural equality. */
  method NestedListEqual(a: Nested, b: Nested) returns (eq: bool)
    ensures eq <==> a == b
    decreases a
  {
    if a.Int? && b.Int? {
      return a.n == b.n;
    } else if a.Int? || b.Int? {
      return false;
    }
    if |a.items| != |b.items| {
      return false;
    }
    var i := 0;
    while i < |a.items|
      invariant 0 <= i <= |a.items|
      invariant a.items[..i] == b.items[..i]
    {
      var same := NestedListEqual(a.items[i], b.items[i]);
      if !same {
        assert a.items[i] != b.items[i];
        return false;
      }
      assert a.items[..i + 1] == a.items[..i] + [a.items[i]];
      assert b.items[..i + 1] == b.items[..i] + [b.items[i]];
      i := i + 1;
    }
    assert a.items == a.items[..i] && b.items == b.items[..i];
    return true;
  }

  // ---------------------------------------------------------------------
  // duplicate
  // ---------------------------------------------------------------------

  /** `duplicate`: an int becomes the list of two copies of it; in a list
      every int element is written twice in a row and every sublist is
      replaced by its own duplicate. */
  function Duplicate(obj: Nested): (r: Nested)
    ensures r.List?
    decreases obj, 1
  {
    match obj
    case Int(k) => List([Int(k), Int(k)])
    case List(xs) => List(DupItems(xs))
  }

  /** The elements `duplicate` builds for the list elements `xs`, in order. */
  function DupItems(xs: seq<Nested>): seq<Nested>
    decreases xs, 0
  {
    if xs == [] then [] else Piece(xs[0]) + DupItems(xs[1..])
  }

  /** What one list element becomes in `duplicate`: two copies of an int, or
      the one duplicated sublist. */
  function Piece(x: Nested): seq<Nested>
    decreases x, 2
  {
    if x.Int? then [x, x] else [Duplicate(x)]
  }

  /** Duplicating the elements of a concatenation duplicates each part. */
  lemma {:induction false} DupItemsAppend(xs: seq<Nested>, ys: seq<Nested>)
    ensures DupItems(xs + ys) == DupItems(xs) + DupItems(ys)
    decreases |xs|
  {
    if xs == [] {
      assert xs + ys == ys;
    } else {
      assert (xs + ys)[0] == xs[0] && (xs + ys)[1..] == xs[1..] + ys;
      DupItemsAppend(xs[1..], ys);
    }
  }

  /** Element `i` of a list contributes its own piece at its own place: an
      int element appears twice in a row there, a sublist once, duplicated. */
  lemma {:induction false} DupItemsAt(xs: seq<Nested>, i: nat)
    requires i < |xs|
    ensures DupItems(xs) == DupItems(xs[..i]) + Piece(xs[i]) + DupItems(xs[i + 1..])
  {
    var rest := xs[i + 1..];
    var one := [xs[i]] + rest;
    assert xs == xs[..i] + one;
    assert one[0] == xs[i] && one[1..] == rest;
    assert DupItems(one) == Piece(xs[i]) + DupItems(rest);
    DupItemsAppend(xs[..i], one);
  }

  /** The examples of the source's documentation. */
  lemma DuplicateExamples()
    ensures Duplicate(Int(1)) == List([Int(1), Int(1)])
    ensures Duplicate(List([])) == List([])
    ensures Duplicate(List([Int(1), Int(2)])) == List([Int(1), Int(1), Int(2), Int(2)])
    ensures Duplicate(List([Int(1), List([Int(2), Int(3)])])) ==
              List([Int(1), Int(1), List([Int(2), Int(2), Int(3), Int(3)])])
  {
    assert [Int(1), Int(2)][1..] == [Int(2)] && [Int(2)][1..] == [];
    assert [Int(2), Int(3)][1..] == [Int(3)] && [Int(3)][1..] == [];
    var inner := List([Int(2), Int(3)]);
    assert [Int(1), inner][1..] == [inner];
    assert DupItems([inner]) == [Duplicate(inner)] + DupItems([]);
    assert DupItems([Int(3)]) == [Int(3), Int(3)];
    assert DupItems([Int(2), Int(3)]) == [Int(2), Int(2)] + [Int(3), Int(3)];
    assert Duplicate(inner) == List([Int(2), Int(2), Int(3), Int(3)]);
    assert DupItems([Int(1), inner]) == [Int(1), Int(1)] + [Duplicate(inner)];
  }

  /** Reading a duplicated list back: an int element stands for itself and
      its copy right after it, a sublist for the sublist read back. */
  function Undup(obj: Nested): Nested
    decreases obj, 1
  {
    match obj
    case Int(_) => obj
    case List(ys) => List(UndupItems(ys))
  }

  function UndupItems(ys: seq<Nested>): seq<Nested>
    decreases ys, 0
  {
    if ys == [] then []
    else if ys[0].Int? then [ys[0]] + UndupItems(ys[(if |ys| >= 2 then 2 else 1)..])
    else [Undup(ys[0])] + UndupItems(ys[1..])
  }

  /** Nothing is lost: reading back a duplicated list gives the list, and a
      duplicated int the one-element list of it. */
  lemma {:induction false} UndupDuplicate(obj: Nested)
    ensures Undup(Duplicate(obj)) == if obj.Int? then List([obj]) else obj
    decreases obj, 1
  {
    match obj
    case Int(k) =>
      assert [Int(k), Int(k)][2..] == [];
      assert UndupItems([Int(k), Int(k)]) == [Int(k)] + UndupItems([]);
    case List(xs) =>
      UndupDupItems(xs);
  }

  lemma {:induction false} UndupDupItems(xs: seq<Nested>)
    ensures UndupItems(DupItems(xs)) == xs
    decreases xs, 0
  {
    if xs != [] {
      var d := DupItems(xs);
      UndupDupItems(xs[1..]);
      if xs[0].Int? {
        assert Piece(xs[0]) == [xs[0], xs[0]];
        assert d == [xs[0], xs[0]] + DupItems(xs[1..]);
        assert d[2..] == DupItems(xs[1..]);
      } else {
        assert d == [Duplicate(xs[0])] + DupItems(xs[1..]);
        assert d[1..] == DupItems(xs[1..]);
        UndupDuplicate(xs[0]);
      }
    }
  }
}

=== FILE: shading.dfy ===
/** Depths and colours (`update_depths` and `update_colours`,
    a2/tm_trees.py:280-310): depths count the steps down from the node the
    pass starts at, and every folder is painted the grey of its depth times a
    step, leaves keeping their own colours. */
module TreeShading {
  import opened Trees

  /** `update_depths(d)`: the node gets depth `d`, its children `d + 1`, and so on. */
  function UpdateDepths(t: Tree, d: int): (u: Tree)
    ensures Blank(u, Level) == Blank(t, Level)
    ensures u.depth == d
    decreases t
  {
    var cs := seq(|t.children|, i requires 0 <= i < |t.children| => UpdateDepths(t.children[i], d + 1));
    var u := t.(depth := d, children := cs);
    assert forall i :: 0 <= i < |t.children| ==>
             Blank(u, Level).children[i] == Blank(t, Level).children[i];
    u
  }

  /** The grey with all three channels equal to `v`. */
  function Grey(v: int): Colour
  {
    Colour(v, v, v)
  }

  /** `update_colours(step)`: every folder takes the grey of its depth times
      `step`; leaves are left alone. */
  function UpdateColours(t: Tree, step: int): (u: Tree)
    ensures Blank(u, Shade) == Blank(t, Shade)
    decreases t
  {
    if |t.children| > 0 then
      var cs := seq(|t.children|, i requires 0 <= i < |t.children| => UpdateColours(t.children[i], step));
      var u := t.(colour := Grey(t.depth * step), children := cs);
      assert forall i :: 0 <= i < |t.children| ==>
               Blank(u, Shade).children[i] == Blank(t, Shade).children[i];
      u
    else t
  }

  /** After `update_depths(d)` the node at path `q` has depth `d + |q|`. */
  lemma {:induction false} UpdateDepthsAt(t: Tree, d: int, q: Path)
    requires ValidPath(t, q)
    ensures ValidPath(UpdateDepths(t, d), q)
    ensures NodeAt(UpdateDepths(t, d), q).depth == d + |q|
    decreases |q|
  {
    BlankPaths(t, UpdateDepths(t, d), Level, q);
    if q != [] {
      UpdateDepthsAt(t.children[q[0]], d + 1, q[1..]);
    }
  }

  /** Each child's depth is one more than its parent's. */
  lemma ChildDepth(t: Tree, d: int, q: Path, i: nat)
    requires ValidPath(t, q) && i < |NodeAt(t, q).children|
    ensures ValidPath(UpdateDepths(t, d), q) && ValidPath(UpdateDepths(t, d), q + [i])
    ensures NodeAt(UpdateDepths(t, d), q + [i]).depth ==
              NodeAt(UpdateDepths(t, d), q).depth + 1
  {
    ExtendPath(t, q, i);
    UpdateDepthsAt(t, d, q);
    UpdateDepthsAt(t, d, q + [i]);
  }

  /** After `update_colours(step)` a folder at `q` has the grey of its depth
      times `step` and a leaf keeps its colour. */
  lemma {:induction false} UpdateColoursAt(t: Tree, step: int, q: Path)
    requires ValidPath(t, q)
    ensures ValidPath(UpdateColours(t, step), q)
    ensures NodeAt(UpdateColours(t, step), q).colour ==
              if |NodeAt(t, q).children| > 0 then Grey(NodeAt(t, q).depth * step)
              else NodeAt(t, q).colour
    decreases |q|
  {
    BlankPaths(t, UpdateColours(t, step), Shade, q);
    if q != [] {
      UpdateColoursAt(t.children[q[0]], step, q[1..]);
    }
  }

  /** Depths from the root, then colours: the root folder is black and a
      folder `k` levels down has grey `k * step`; leaves keep their colours. */
  lemma ShadesByLevel(t: Tree, step: int, q: Path)
    requires ValidPath(t, q)
    ensures var u := UpdateColours(UpdateDepths(t, 0), step);
            ValidPath(u, q) &&
            NodeAt(u, q).colour ==
              if |NodeAt(t, q).children| > 0 then Grey(|q| * step) else NodeAt(t, q).colour
  {
    var t1 := UpdateDepths(t, 0);
    UpdateDepthsAt(t, 0, q);
    BlankPaths(t, t1, Level, q);
    UpdateColoursAt(t1, step, q);
  }
}

=== FILE: sizes.dfy ===
/** Size bookkeeping: re-deriving sizes bottom-up (`update_data_sizes`,
    a2/tm_trees.py:221-236) and resizing a leaf (`change_size`,
    a2/tm_trees.py:238-259). The source's float factor is the exact ratio
    `num / den`. */
module TreeSizes {
  import opened Wrappers
  import opened Trees
  import opened IntMath

  /** Every internal node takes the sum of its children's re-derived sizes; a
      leaf keeps its size, raised to 0 if negative. */
  function UpdateSizes(t: Tree): (u: Tree)
    ensures SizesOk(u)
    ensures Blank(u, Size) == Blank(t, Size)
    ensures |t.children| == 0 ==> u.size == Max(0, t.size)
    decreases t
  {
    if |t.children| > 0 then
      var cs := seq(|t.children|, i requires 0 <= i < |t.children| => UpdateSizes(t.children[i]));
      SumSizesNonNegative(cs);
      var u := t.(children := cs, size := Max(0, SumSizes(cs)));
      BlankFromChildren(u, t, Size);
      u
    else t.(size := Max(0, t.size))
  }

  /** The source's `update_data_sizes` called on the node at `p`: only that
      subtree is re-derived. */
  function UpdateSizesAt(t: Tree, p: Path): (u: Tree)
    requires ValidPath(t, p)
    ensures ValidPath(u, p) && SizesOk(NodeAt(u, p))
    ensures Blank(u, Size) == Blank(t, Size)
  {
    BlankReplace(t, p, UpdateSizes(NodeAt(t, p)), Size);
    ReplaceAt(t, p, UpdateSizes(NodeAt(t, p)))
  }

  /** Re-deriving the whole tree re-derives each subtree. */
  lemma {:induction false} SizesUpdateAt(t: Tree, q: Path)
    requires ValidPath(t, q)
    ensures ValidPath(UpdateSizes(t), q)
    ensures NodeAt(UpdateSizes(t), q) == UpdateSizes(NodeAt(t, q))
    decreases |q|
  {
    if q != [] {
      SizesUpdateAt(t.children[q[0]], q[1..]);
    }
  }

  /** Re-deriving sizes changes nothing in a tree whose sizes are already
      consistent. */
  lemma {:induction false} UpdateSizesIdempotent(t: Tree)
    requires SizesOk(t)
    ensures UpdateSizes(t) == t
    decreases t
  {
    if |t.children| > 0 {
      forall i | 0 <= i < |t.children|
        ensures UpdateSizes(t.children[i]) == t.children[i]
      {
        UpdateSizesIdempotent(t.children[i]);
      }
      assert UpdateSizes(t).children == t.children;
    }
  }

  /** Re-deriving sizes keeps every leaf's size, unless it was negative, in
      which case it becomes 0. */
  lemma {:induction false} UpdateSizesKeepsLeaves(t: Tree, q: Path)
    requires ValidPath(t, q) && |NodeAt(t, q).children| == 0
    ensures ValidPath(UpdateSizes(t), q)
    ensures NodeAt(UpdateSizes(t), q).size == Max(0, NodeAt(t, q).size)
    decreases |q|
  {
    if q != [] {
      UpdateSizesKeepsLeaves(t.children[q[0]], q[1..]);
    }
  }

  /** Re-deriving the subtree at `p` clamps every leaf inside it at 0 and
      leaves every other leaf exactly as it was. */
  lemma UpdateSizesAtKeepsLeaves(t: Tree, p: Path, q: Path)
    requires ValidPath(t, p) && ValidPath(t, q) && |NodeAt(t, q).children| == 0
    ensures ValidPath(UpdateSizesAt(t, p), q)
    ensures |NodeAt(UpdateSizesAt(t, p), q).children| == 0
    ensures NodeAt(UpdateSizesAt(t, p), q).size ==
              if p <= q then Max(0, NodeAt(t, q).size) else NodeAt(t, q).size
  {
    var n := UpdateSizes(NodeAt(t, p));
    assert UpdateSizesAt(t, p) == ReplaceAt(t, p, n);
    if p <= q {
      var r := q[|p|..];
      assert q == p + r;
      AppendPath(t, p, r);
      ReplaceAtBelow(t, p, n, r);
      UpdateSizesKeepsLeaves(NodeAt(t, p), r);
      BlankPaths(NodeAt(t, p), n, Size, r);
    } else if q <= p {
      LeafEndsPaths(t, q, p);
    } else {
      ReplaceAtKeepsOthers(t, p, n, q);
    }
  }

  // ---------------------------------------------------------------------
  /** Re-deriving the subtree at `p` leaves the size of every node outside
      that subtree as it was. */
  lemma UpdateSizesAtKeepsOutside(t: Tree, p: Path, q: Path)
    requires ValidPath(t, p) && ValidPath(t, q) && !(p <= q)
    ensures ValidPath(UpdateSizesAt(t, p), q)
    ensures NodeAt(UpdateSizesAt(t, p), q).size == NodeAt(t, q).size
  {
    ReplaceAtKeepsOthers(t, p, UpdateSizes(NodeAt(t, p)), q);
  }

  // Resizing a leaf
  // ---------------------------------------------------------------------

  /** The change `change_size` applies to a leaf of size `size` for the
      factor num / den: size × factor rounded up for a positive factor and
      down for a negative one. */
  function Change(size: int, num: int, den: int): (c: int)
    requires den > 0
    ensures num > 0 ==> (c - 1) * den < size * num <= c * den
    ensures num < 0 ==> c * den <= size * num < (c + 1) * den
    ensures num == 0 ==> c == 0
  {
    if num > 0 then CeilDiv(size * num, den)
    else if num < 0 then FloorDiv(size * num, den)
    else 0
  }

  /** The change keeps the leaf above 1 exactly when size × factor is
      above 1 - size (positive factor) or at least 2 - size (negative factor). */
  lemma ChangeAtMost(size: int, num: int, den: int)
    requires den > 0
    ensures num > 0 ==> (Change(size, num, den) <= 1 - size <==> size * num <= (1 - size) * den)
    ensures num < 0 ==> (Change(size, num, den) <= 1 - size <==> size * num < (2 - size) * den)
  {
    if num > 0 {
      CeilDivAtMost(size * num, den, 1 - size);
    } else if num < 0 {
      FloorDivAtMost(size * num, den, 1 - size);
    }
  }

  /** A non-zero factor changes a leaf of size at least 1 (above 1 for a
      negative factor) by at least one. */
  lemma ChangeIsSome(size: int, num: int, den: int)
    requires den > 0
    ensures num > 0 && size >= 1 ==> Change(size, num, den) >= 1
    ensures num < 0 && size > 1 ==> Change(size, num, den) <= -1
  {
    if num > 0 && size >= 1 {
      ProductPositive(size, num);
      CeilDivAtMost(size * num, den, 0);
    } else if num < 0 && size > 1 {
      ProductPositive(size, -num);
      FloorDivAtMost(size * num, den, -1);
    }
  }

  lemma ProductPositive(a: int, b: int)
    requires a >= 1 && b >= 1
    ensures a * b >= 1 && a * -b == -(a * b)
  {
  }

  /** The new size of a leaf of size `size` changed by the factor num / den:
      the change is rounded away from zero (up for a positive factor, down
      for a negative one) and the result is at least 1. */
  function Resized(size: int, num: int, den: int): (n: int)
    requires den > 0
    ensures n >= 1
    ensures num > 0 && size >= 1 ==> n > size
    ensures num < 0 && size > 1 ==> n < size
    ensures num == 0 ==> n == Max(1, size)
    ensures num > 0 && n > 1 ==> (n - size - 1) * den < size * num <= (n - size) * den
    ensures num < 0 && n > 1 ==> (n - size) * den <= size * num < (n - size + 1) * den
    ensures num > 0 ==> (n == 1 <==> size * num <= (1 - size) * den)
    ensures num < 0 ==> (n == 1 <==> size * num < (2 - size) * den)
  {
    var c := Change(size, num, den);
    ChangeAtMost(size, num, den);
    ChangeIsSome(size, num, den);
    if size + c < 1 then 1
    else
      assert size + c - size == c;
      size + c
  }

  /** The leaf at `p` resized, or the tree unchanged when `p` is internal. */
  function ResizeLeaf(t: Tree, p: Path, num: int, den: int): (u: Tree)
    requires ValidPath(t, p) && den > 0
    ensures ValidPath(u, p) && Blank(u, Size) == Blank(t, Size)
    ensures |NodeAt(t, p).children| == 0 ==> NodeAt(u, p).size == Resized(NodeAt(t, p).size, num, den)
    ensures |NodeAt(t, p).children| > 0 ==> u == t
    ensures forall j :: 0 <= j < |p| ==>
              ValidPath(t, p[..j]) && ValidPath(u, p[..j]) &&
              NodeAt(u, p[..j]).size == NodeAt(t, p[..j]).size
  {
    var n := NodeAt(t, p);
    ReplaceKeepsSizesAbove(t, p, n);
    if |n.children| == 0 then
      var n' := n.(size := Resized(n.size, num, den));
      BlankReplace(t, p, n', Size);
      ReplaceKeepsSizesAbove(t, p, n');
      ReplaceAt(t, p, n')
    else t
  }

  /** `change_size` as the source writes it: after resizing, only the
      parent's subtree is re-derived, so the ancestors above the parent keep
      their old sizes. */
  function ChangeSizeAsWritten(t: Tree, p: Path, num: int, den: int): (u: Tree)
    requires ValidPath(t, p) && den > 0
    ensures Blank(u, Size) == Blank(t, Size)
    ensures p != [] ==> ValidPath(u, Parent(p)) && SizesOk(NodeAt(u, Parent(p)))
    ensures |NodeAt(t, p).children| == 0 ==>
              ValidPath(u, p) && NodeAt(u, p).size == Resized(NodeAt(t, p).size, num, den)
    ensures forall j :: 0 <= j < |p| - 1 ==>
              ValidPath(t, p[..j]) && ValidPath(u, p[..j]) &&
              NodeAt(u, p[..j]).size == NodeAt(t, p[..j]).size
    ensures forall q :: ValidPath(t, q) && |NodeAt(t, q).children| == 0 && q != p ==>
              ValidPath(u, q) &&
              NodeAt(u, q).size ==
                if p != [] && Parent(p) <= q then Max(0, NodeAt(t, q).size) else NodeAt(t, q).size
    ensures p != [] ==>
              forall q :: ValidPath(t, q) && !(Parent(p) <= q) ==>
                ValidPath(u, q) && NodeAt(u, q).size == NodeAt(t, q).size
  {
    var t1 := ResizeLeaf(t, p, num, den);
    ResizeLeafKeepsOtherLeaves(t, p, num, den);
    if p == [] then t1
    else
      PrefixValid(t1, p, Parent(p));
      ResumParentAfterResize(t, p, num, den);
      ResumKeepsOtherLeaves(t, p, num, den);
      ResumKeepsOutside(t, p, num, den);
      UpdateSizesAt(t1, Parent(p))
  }

  /** Nothing outside the parent's subtree changes size: neither the resize
      nor re-deriving the parent's subtree reaches it. */
  lemma ResumKeepsOutside(t: Tree, p: Path, num: int, den: int)
    requires ValidPath(t, p) && den > 0 && p != []
    ensures ValidPath(ResizeLeaf(t, p, num, den), Parent(p))
    ensures forall q :: ValidPath(t, q) && !(Parent(p) <= q) ==>
              ValidPath(UpdateSizesAt(ResizeLeaf(t, p, num, den), Parent(p)), q) &&
              NodeAt(UpdateSizesAt(ResizeLeaf(t, p, num, den), Parent(p)), q).size == NodeAt(t, q).size
  {
    var t1 := ResizeLeaf(t, p, num, den);
    PrefixValid(t1, p, Parent(p));
    ParentStep(t, p);
    var n := NodeAt(t, p);
    forall q | ValidPath(t, q) && !(Parent(p) <= q)
      ensures ValidPath(UpdateSizesAt(t1, Parent(p)), q)
      ensures NodeAt(UpdateSizesAt(t1, Parent(p)), q).size == NodeAt(t, q).size
    {
      assert !(p <= q);
      if |n.children| == 0 {
        var n' := n.(size := Resized(n.size, num, den));
        assert t1 == ReplaceAt(t, p, n');
        ReplaceAtKeepsOthers(t, p, n', q);
      }
      UpdateSizesAtKeepsOutside(t1, Parent(p), q);
    }
  }

  /** Resizing the leaf at `p` leaves every other leaf as it was. */
  lemma ResizeLeafKeepsOtherLeaves(t: Tree, p: Path, num: int, den: int)
    requires ValidPath(t, p) && den > 0
    ensures forall q :: ValidPath(t, q) && |NodeAt(t, q).children| == 0 && q != p ==>
              ValidPath(ResizeLeaf(t, p, num, den), q) &&
              NodeAt(ResizeLeaf(t, p, num, den), q) == NodeAt(t, q)
  {
    var n := NodeAt(t, p);
    if |n.children| == 0 {
      var n' := n.(size := Resized(n.size, num, den));
      assert ResizeLeaf(t, p, num, den) == ReplaceAt(t, p, n');
      forall q | ValidPath(t, q) && |NodeAt(t, q).children| == 0 && q != p
        ensures ValidPath(ReplaceAt(t, p, n'), q) && NodeAt(ReplaceAt(t, p, n'), q) == NodeAt(t, q)
      {
        if p <= q {
          LeafEndsPaths(t, p, q);
        } else if q <= p {
          LeafEndsPaths(t, q, p);
        } else {
          ReplaceAtKeepsOthers(t, p, n', q);
        }
      }
    }
  }

  /** After the resize, re-deriving the parent's subtree clamps the other
      leaves inside it at 0 and leaves every leaf outside it as it was. */
  lemma ResumKeepsOtherLeaves(t: Tree, p: Path, num: int, den: int)
    requires ValidPath(t, p) && den > 0 && p != []
    ensures ValidPath(ResizeLeaf(t, p, num, den), Parent(p))
    ensures forall q :: ValidPath(t, q) && |NodeAt(t, q).children| == 0 && q != p ==>
              ValidPath(UpdateSizesAt(ResizeLeaf(t, p, num, den), Parent(p)), q) &&
              NodeAt(UpdateSizesAt(ResizeLeaf(t, p, num, den), Parent(p)), q).size ==
                if Parent(p) <= q then Max(0, NodeAt(t, q).size) else NodeAt(t, q).size
  {
    var t1 := ResizeLeaf(t, p, num, den);
    PrefixValid(t1, p, Parent(p));
    ResizeLeafKeepsOtherLeaves(t, p, num, den);
    forall q | ValidPath(t, q) && |NodeAt(t, q).children| == 0 && q != p
      ensures ValidPath(UpdateSizesAt(t1, Parent(p)), q)
      ensures NodeAt(UpdateSizesAt(t1, Parent(p)), q).size ==
                if Parent(p) <= q then Max(0, NodeAt(t, q).size) else NodeAt(t, q).size
    {
      UpdateSizesAtKeepsLeaves(t1, Parent(p), q);
    }
  }

  /** Re-deriving the parent's subtree after a resize keeps the resized
      leaf's new size and does not reach the nodes above the parent. */
  lemma ResumParentAfterResize(t: Tree, p: Path, num: int, den: int)
    requires ValidPath(t, p) && den > 0 && p != []
    ensures ValidPath(ResizeLeaf(t, p, num, den), Parent(p))
    ensures var u := UpdateSizesAt(ResizeLeaf(t, p, num, den), Parent(p));
            && (|NodeAt(t, p).children| == 0 ==>
                  ValidPath(u, p) && NodeAt(u, p).size == Resized(NodeAt(t, p).size, num, den))
            && forall j :: 0 <= j < |p| - 1 ==>
                 ValidPath(t, p[..j]) && ValidPath(u, p[..j]) &&
                 NodeAt(u, p[..j]).size == NodeAt(t, p[..j]).size
  {
    var pp := Parent(p);
    var t1 := ResizeLeaf(t, p, num, den);
    PrefixValid(t1, p, pp);
    if |NodeAt(t, p).children| == 0 {
      ResumKeepsLeaf(t1, p);
    }
    ReplaceKeepsSizesAbove(t1, pp, UpdateSizes(NodeAt(t1, pp)));
    assert forall j :: 0 <= j < |pp| ==> pp[..j] == p[..j];
  }

  /** Re-deriving the parent of a leaf keeps the leaf's size if it is not
      negative. */
  lemma ResumKeepsLeaf(t: Tree, p: Path)
    requires ValidPath(t, p) && p != [] && |NodeAt(t, p).children| == 0
    ensures ValidPath(t, Parent(p))
    ensures ValidPath(UpdateSizesAt(t, Parent(p)), p)
    ensures NodeAt(UpdateSizesAt(t, Parent(p)), p).size == Max(0, NodeAt(t, p).size)
  {
    var pp := Parent(p);
    ParentStep(t, p);
    var par := NodeAt(t, pp);
    var leaf := NodeAt(t, p);
    var x := UpdateSizes(par);
    var u := UpdateSizesAt(t, pp);
    assert u == ReplaceAt(t, pp, x);
    assert [Last(p)][1..] == [];
    assert NodeAt(leaf, []) == leaf;
    assert NodeAt(par, [Last(p)]) == NodeAt(leaf, [Last(p)][1..]);
    SizesUpdateAt(par, [Last(p)]);
    var y := NodeAt(x, [Last(p)]);
    assert y == UpdateSizes(leaf);
    assert y.size == Max(0, leaf.size);
    ReplaceAtBelow(t, pp, x, [Last(p)]);
  }

  /** A file two levels below the root doubled in size: its folder is
      re-derived but the root still holds the old total, so the size
      invariant is broken. */
  lemma ChangeSizeAsWrittenLeavesRootStale()
    ensures var file := Node(Some("f"), [], 10, ZeroRect, Colour(200, 30, 30), false, 2);
            var folder := Node(Some("d"), [file], 10, ZeroRect, Colour(0, 0, 0), false, 1);
            var root := Node(Some("r"), [folder], 10, ZeroRect, Colour(0, 0, 0), false, 0);
            var u := ChangeSizeAsWritten(root, [0, 0], 1, 1);
            SizesOk(root) && u.size == 10 && u.children[0].size == 20 && !SizesOk(u)
  {
    var file := Node(Some("f"), [], 10, ZeroRect, Colour(200, 30, 30), false, 2);
    var folder := Node(Some("d"), [file], 10, ZeroRect, Colour(0, 0, 0), false, 1);
    var root := Node(Some("r"), [folder], 10, ZeroRect, Colour(0, 0, 0), false, 0);
    SumSizesOfFew(file, file);
    assert SizesOk(root);
    var u := ChangeSizeAsWritten(root, [0, 0], 1, 1);
    assert Resized(10, 1, 1) == 20;
    var file' := file.(size := 20);
    assert [0, 0][1..] == [0] && [0][1..] == [];
    assert ReplaceAt(file, [], file') == file';
    assert ReplaceAt(folder, [0], file') == folder.(children := [file']);
    assert ResizeLeaf(root, [0, 0], 1, 1) == root.(children := [folder.(children := [file'])]);
    assert UpdateSizes(file') == file';
    SumSizesOfFew(file', file');
    var folder' := folder.(children := [file']);
    var t1 := root.(children := [folder']);
    assert Parent([0, 0]) == [0] && NodeAt(t1, [0]) == folder';
    var f2 := UpdateSizes(folder');
    assert f2.children == [file'];
    assert f2.size == 20;
    assert u == ReplaceAt(t1, [0], f2);
    assert u.children[0] == f2;
    assert SumSizes(u.children) == 20;
  }

  /** `change_size` with the size change carried up to the root, as the size
      invariant requires: the resized leaf's ancestors all take their new
      sums. */
  function ChangeSize(t: Tree, p: Path, num: int, den: int): (u: Tree)
    requires ValidPath(t, p) && den > 0
    ensures SizesOk(u)
    ensures Blank(u, Size) == Blank(t, Size)
  {
    UpdateSizes(ResizeLeaf(t, p, num, den))
  }

  /** After a resize the leaf holds its new size, and in a consistent tree
      every other leaf keeps its own. */
  lemma ChangeSizeResizesOnlyTheLeaf(t: Tree, p: Path, num: int, den: int, q: Path)
    requires ValidPath(t, p) && den > 0 && |NodeAt(t, p).children| == 0
    requires ValidPath(t, q) && |NodeAt(t, q).children| == 0
    requires SizesOk(t)
    ensures ValidPath(ChangeSize(t, p, num, den), q)
    ensures NodeAt(ChangeSize(t, p, num, den), q).size ==
              if q == p then Resized(NodeAt(t, p).size, num, den) else NodeAt(t, q).size
  {
    var n := NodeAt(t, p);
    var t1 := ResizeLeaf(t, p, num, den);
    if q == p {
      UpdateSizesKeepsLeaves(t1, p);
    } else {
      if p <= q {
        LeafEndsPaths(t, p, q);
      }
      if q <= p {
        LeafEndsPaths(t, q, p);
      }
      ReplaceAtElsewhere(t, p, n.(size := Resized(n.size, num, den)), q);
      UpdateSizesKeepsLeaves(t1, q);
      SizesOkAt(t, q);
    }
  }

  /** Resizing an internal node changes nothing in a consistent tree. */
  lemma ChangeSizeOfFolderIsNoOp(t: Tree, p: Path, num: int, den: int)
    requires ValidPath(t, p) && den > 0 && |NodeAt(t, p).children| > 0
    requires SizesOk(t)
    ensures ChangeSize(t, p, num, den) == t
  {
    UpdateSizesIdempotent(t);
  }

  lemma {:induction false} SizesOkAt(t: Tree, q: Path)
    requires SizesOk(t) && ValidPath(t, q)
    ensures SizesOk(NodeAt(t, q))
    decreases |q|
  {
    if q != [] {
      SizesOkAt(t.children[q[0]], q[1..]);
    }
  }
}

=== FILE: trees.dfy ===
/** The tree of the treemap engine (`TMTree` in a2/tm_trees.py): its node
    record, its representation invariants, construction, and child-index
    paths, which address a node inside a tree in place of the source's parent
    back-references. The parent of the node at path `p` is the node at
    `Parent(p)`; the root is the node at the empty path and has no parent. */
module Trees {
  import opened Wrappers

  /** A placement on screen: left edge, top edge, width and height. */
  datatype Rect = Rect(x: int, y: int, width: int, height: int)

  /** The placement of a node of size 0. */
  const ZeroRect: Rect := Rect(0, 0, 0, 0)

  datatype Colour = Colour(r: int, g: int, b: int)

  /** One node and, through `children`, its whole subtree. A node whose name
      is `None` is the empty tree. */
  datatype Tree = Node(name: Option<string>, children: seq<Tree>, size: int,
                       rect: Rect, colour: Colour, expanded: bool, depth: int)

  /** A sequence of child indices leading down from a root. */
  type Path = seq<nat>

  /** The total size of a sequence of sibling nodes, summed left to right. */
  function SumSizes(cs: seq<Tree>): int
  {
    if cs == [] then 0 else SumSizes(cs[..|cs| - 1]) + cs[|cs| - 1].size
  }

  lemma {:induction false} SumSizesNonNegative(cs: seq<Tree>)
    requires forall i :: 0 <= i < |cs| ==> cs[i].size >= 0
    ensures SumSizes(cs) >= 0
  {
    if cs != [] {
      SumSizesNonNegative(cs[..|cs| - 1]);
    }
  }

  /** The totals of one and of two siblings. */
  lemma SumSizesOfFew(a: Tree, b: Tree)
    ensures SumSizes([a]) == a.size && SumSizes([a, b]) == a.size + b.size
  {
    assert [a][..0] == [] && [a, b][..1] == [a];
  }

  // ---------------------------------------------------------------------
  // Representation invariants
  // ---------------------------------------------------------------------

  /** Every size is non-negative and every node with children has the sum of
      its children's sizes. */
  predicate SizesOk(t: Tree)
  {
    && t.size >= 0
    && (|t.children| > 0 ==> t.size == SumSizes(t.children))
    && forall i :: 0 <= i < |t.children| ==> SizesOk(t.children[i])
  }

  /** A leaf is never expanded, and an expanded node has an expanded parent. */
  predicate ExpansionOk(t: Tree)
  {
    && (|t.children| == 0 ==> !t.expanded)
    && forall i :: 0 <= i < |t.children| ==>
         (t.children[i].expanded ==> t.expanded) && ExpansionOk(t.children[i])
  }

  /** Only a childless root of size 0 may be nameless (the empty tree). */
  predicate NamesOk(t: Tree)
  {
    && (t.name.None? ==> |t.children| == 0 && t.size == 0)
    && forall i :: 0 <= i < |t.children| ==>
         t.children[i].name.Some? && NamesOk(t.children[i])
  }

  // ---------------------------------------------------------------------
  // Construction
  // ---------------------------------------------------------------------

  /** A fresh node: placed nowhere, collapsed, at depth 0. A node built with
      children takes the sum of their sizes and ignores `dataSize`; a leaf
      keeps `dataSize`. The colour is the caller's, standing in for the
      source's random choice. */
  method Build(name: Option<string>, children: seq<Tree>, dataSize: int, colour: Colour)
    returns (t: Tree)
    requires name.None? ==> |children| == 0
    ensures t.name == name && t.children == children && t.colour == colour
    ensures t.rect == ZeroRect && !t.expanded && t.depth == 0
    ensures |children| == 0 ==> t.size == dataSize
    ensures |children| > 0 ==> t.size == SumSizes(children)
    ensures ((|children| > 0 || dataSize >= 0) &&
             (forall i :: 0 <= i < |children| ==> SizesOk(children[i]))) ==> SizesOk(t)
    ensures (forall i :: 0 <= i < |children| ==>
               ExpansionOk(children[i]) && !children[i].expanded) ==> ExpansionOk(t)
  {
    var total := dataSize;
    if |children| > 0 {
      total := 0;
      var i := 0;
      while i < |children|
        invariant 0 <= i <= |children|
        invariant total == SumSizes(children[..i])
      {
        assert children[..i + 1][..i] == children[..i];
        total := total + children[i].size;
        i := i + 1;
      }
      assert children[..|children|] == children;
      if forall k :: 0 <= k < |children| ==> SizesOk(children[k]) {
        SumSizesNonNegative(children);
      }
    }
    t := Node(name, children, total, ZeroRect, colour, false, 0);
  }

  // ---------------------------------------------------------------------
  // Paths
  // ---------------------------------------------------------------------

  predicate ValidPath(t: Tree, p: Path)
    decreases |p|
  {
    p == [] || (p[0] < |t.children| && ValidPath(t.children[p[0]], p[1..]))
  }

  function NodeAt(t: Tree, p: Path): Tree
    requires ValidPath(t, p)
    decreases |p|
  {
    if p == [] then t else NodeAt(t.children[p[0]], p[1..])
  }

  function Parent(p: Path): Path
    requires p != []
  {
    p[..|p| - 1]
  }

  function Last(p: Path): nat
    requires p != []
  {
    p[|p| - 1]
  }

  /** `t` with the subtree at `p` replaced by `n`; every node off the path is
      untouched, and the nodes on the path change only in that child. */
  function ReplaceAt(t: Tree, p: Path, n: Tree): (r: Tree)
    requires ValidPath(t, p)
    ensures ValidPath(r, p) && NodeAt(r, p) == n
    ensures p != [] ==> |r.children| == |t.children| && r.(children := t.children) == t
    ensures p != [] ==> forall i :: 0 <= i < |t.children| && i != p[0] ==>
                          r.children[i] == t.children[i]
    decreases |p|
  {
    if p == [] then n
    else t.(children := t.children[p[0] := ReplaceAt(t.children[p[0]], p[1..], n)])
  }

  lemma {:induction false} PrefixValid(t: Tree, p: Path, q: Path)
    requires ValidPath(t, p) && q <= p
    ensures ValidPath(t, q)
    decreases |p|
  {
    if q != [] {
      PrefixValid(t.children[p[0]], p[1..], q[1..]);
    }
  }

  /** Walking `p` and then `q` is walking `p + q`. */
  lemma {:induction false} AppendPath(t: Tree, p: Path, q: Path)
    ensures ValidPath(t, p + q) <==> ValidPath(t, p) && ValidPath(NodeAt(t, p), q)
    ensures ValidPath(t, p + q) ==> NodeAt(t, p + q) == NodeAt(NodeAt(t, p), q)
    decreases |p|
  {
    if p != [] {
      assert (p + q)[0] == p[0] && (p + q)[1..] == p[1..] + q;
      if p[0] < |t.children| {
        AppendPath(t.children[p[0]], p[1..], q);
      }
    } else {
      assert p + q == q;
    }
  }

  lemma ExtendPath(t: Tree, p: Path, i: nat)
    requires ValidPath(t, p) && i < |NodeAt(t, p).children|
    ensures ValidPath(t, p + [i]) && NodeAt(t, p + [i]) == NodeAt(t, p).children[i]
  {
    AppendPath(t, p, [i]);
  }

  /** A leaf has nothing below it: the only valid path through a leaf ends at it. */
  lemma LeafEndsPaths(t: Tree, p: Path, q: Path)
    requires ValidPath(t, p) && ValidPath(t, q) && p <= q
    requires |NodeAt(t, p).children| == 0
    ensures p == q
  {
    assert q == p + q[|p|..];
    AppendPath(t, p, q[|p|..]);
  }

  /** The node at a non-empty path is a child of the node at its parent path. */
  lemma ParentStep(t: Tree, p: Path)
    requires ValidPath(t, p) && p != []
    ensures ValidPath(t, Parent(p)) && Last(p) < |NodeAt(t, Parent(p)).children|
    ensures NodeAt(t, p) == NodeAt(t, Parent(p)).children[Last(p)]
    ensures p == Parent(p) + [Last(p)]
  {
    assert p == Parent(p) + [Last(p)];
    AppendPath(t, Parent(p), [Last(p)]);
  }

  /** Seen from a node `q` above or at `p`, replacing at `p` is replacing at
      the rest of `p` below `q`. */
  lemma {:induction false} ReplaceAtAbove(t: Tree, p: Path, n: Tree, q: Path)
    requires ValidPath(t, p) && q <= p
    ensures ValidPath(t, q) && ValidPath(NodeAt(t, q), p[|q|..])
    ensures ValidPath(ReplaceAt(t, p, n), q)
    ensures NodeAt(ReplaceAt(t, p, n), q) == ReplaceAt(NodeAt(t, q), p[|q|..], n)
    decreases |q|
  {
    if q == [] {
      assert p[0..] == p;
    } else {
      ReplaceAtAbove(t.children[p[0]], p[1..], n, q[1..]);
      assert p[1..][|q| - 1..] == p[|q|..];
    }
  }

  /** Replacing at `p` leaves every node that is neither above nor below `p`
      where it was, and unchanged. */
  lemma {:induction false} ReplaceAtElsewhere(t: Tree, p: Path, n: Tree, q: Path)
    requires ValidPath(t, p) && ValidPath(t, q)
    requires !(q <= p) && !(p <= q)
    ensures ValidPath(ReplaceAt(t, p, n), q)
    ensures NodeAt(ReplaceAt(t, p, n), q) == NodeAt(t, q)
    decreases |p|
  {
    if p[0] == q[0] {
      ReplaceAtElsewhere(t.children[p[0]], p[1..], n, q[1..]);
    }
  }

  /** Replacing at `q` overrides any earlier replacement at or below `q`. */
  lemma {:induction false} ReplaceOverrides(t: Tree, p: Path, n: Tree, q: Path, m: Tree)
    requires ValidPath(t, p) && q <= p
    ensures ValidPath(t, q) && ValidPath(ReplaceAt(t, p, n), q)
    ensures ReplaceAt(ReplaceAt(t, p, n), q, m) == ReplaceAt(t, q, m)
    decreases |q|
  {
    ReplaceAtAbove(t, p, n, q);
    if q != [] {
      ReplaceOverrides(t.children[p[0]], p[1..], n, q[1..], m);
    }
  }

  /** Replacing at `p` keeps the number of children of every node above `p`. */
  lemma ReplaceKeepsCountsAbove(t: Tree, p: Path, n: Tree, q: Path)
    requires ValidPath(t, p) && q < p
    ensures ValidPath(t, q) && ValidPath(ReplaceAt(t, p, n), q)
    ensures |NodeAt(ReplaceAt(t, p, n), q).children| == |NodeAt(t, q).children|
  {
    ReplaceAtAbove(t, p, n, q);
  }

  /** Replacing at `p` keeps every node that is not at or below `p`: nodes
      off the path are untouched, and the nodes above `p` keep all their own
      fields and their number of children. */
  lemma ReplaceAtKeepsOthers(t: Tree, p: Path, n: Tree, q: Path)
    requires ValidPath(t, p) && ValidPath(t, q) && !(p <= q)
    ensures ValidPath(ReplaceAt(t, p, n), q)
    ensures |NodeAt(ReplaceAt(t, p, n), q).children| == |NodeAt(t, q).children|
    ensures NodeAt(ReplaceAt(t, p, n), q).(children := NodeAt(t, q).children) == NodeAt(t, q)
    ensures !(q <= p) ==> NodeAt(ReplaceAt(t, p, n), q) == NodeAt(t, q)
  {
    if q <= p {
      ReplaceAtAbove(t, p, n, q);
    } else {
      ReplaceAtElsewhere(t, p, n, q);
    }
  }

  /** Replacing at `p` keeps the size of every node strictly above `p`. */
  lemma ReplaceKeepsSizesAbove(t: Tree, p: Path, n: Tree)
    requires ValidPath(t, p)
    ensures forall j :: 0 <= j < |p| ==>
              ValidPath(t, p[..j]) && ValidPath(ReplaceAt(t, p, n), p[..j]) &&
              NodeAt(ReplaceAt(t, p, n), p[..j]).size == NodeAt(t, p[..j]).size
  {
    forall j | 0 <= j < |p|
      ensures ValidPath(t, p[..j]) && ValidPath(ReplaceAt(t, p, n), p[..j])
      ensures NodeAt(ReplaceAt(t, p, n), p[..j]).size == NodeAt(t, p[..j]).size
    {
      PrefixValid(t, p, p[..j]);
      ReplaceAtKeepsOthers(t, p, n, p[..j]);
    }
  }

  /** Putting back the node that is already there changes nothing. */
  lemma {:induction false} ReplaceAtSame(t: Tree, p: Path)
    requires ValidPath(t, p)
    ensures ReplaceAt(t, p, NodeAt(t, p)) == t
    decreases |p|
  {
    if p != [] {
      ReplaceAtSame(t.children[p[0]], p[1..]);
      assert t.children[p[0] := t.children[p[0]]] == t.children;
    }
  }

  /** Below `p`, the tree after replacing at `p` is the new subtree. */
  lemma ReplaceAtBelow(t: Tree, p: Path, n: Tree, q: Path)
    requires ValidPath(t, p)
    ensures ValidPath(ReplaceAt(t, p, n), p + q) <==> ValidPath(n, q)
    ensures ValidPath(n, q) ==> NodeAt(ReplaceAt(t, p, n), p + q) == NodeAt(n, q)
  {
    AppendPath(ReplaceAt(t, p, n), p, q);
  }

  // ---------------------------------------------------------------------
  // "Nothing else changes": a tree with one kind of field erased
  // ---------------------------------------------------------------------

  datatype Field = Size | Placement | Shade | Expansion | Level

  /** `t` with field `f` of every node reset to a fixed value; two trees with
      equal `Blank(_, f)` differ at most in field `f`. */
  function Blank(t: Tree, f: Field): (b: Tree)
    ensures |b.children| == |t.children|
    ensures forall i :: 0 <= i < |t.children| ==> b.children[i] == Blank(t.children[i], f)
    decreases t
  {
    var cs := seq(|t.children|, i requires 0 <= i < |t.children| => Blank(t.children[i], f));
    match f
    case Size => t.(children := cs, size := 0)
    case Placement => t.(children := cs, rect := ZeroRect)
    case Shade => t.(children := cs, colour := Colour(0, 0, 0))
    case Expansion => t.(children := cs, expanded := false)
    case Level => t.(children := cs, depth := 0)
  }

  /** Two nodes agree off field `f` when their own fields do and their
      children pair up off `f`. */
  lemma BlankFromChildren(a: Tree, b: Tree, f: Field)
    requires |a.children| == |b.children|
    requires forall i :: 0 <= i < |a.children| ==> Blank(a.children[i], f) == Blank(b.children[i], f)
    requires Blank(a.(children := []), f) == Blank(b.(children := []), f)
    ensures Blank(a, f) == Blank(b, f)
  {
    assert Blank(a, f).children == Blank(b, f).children;
  }

  /** Erasing field `f` commutes with dropping the children. */
  lemma BlankOwnFields(a: Tree, f: Field)
    ensures Blank(a.(children := []), f) == Blank(a, f).(children := [])
  {
  }

  /** Replacing at the same path in two trees that agree off field `f`, by
      two nodes that agree off `f`, gives trees that agree off `f`. */
  lemma {:induction false} BlankReplaceBoth(a: Tree, b: Tree, p: Path, na: Tree, nb: Tree, f: Field)
    requires Blank(a, f) == Blank(b, f) && ValidPath(a, p)
    requires Blank(na, f) == Blank(nb, f)
    ensures ValidPath(b, p)
    ensures Blank(ReplaceAt(a, p, na), f) == Blank(ReplaceAt(b, p, nb), f)
    decreases |p|
  {
    BlankPaths(a, b, f, p);
    if p != [] {
      var i := p[0];
      assert Blank(a, f).children[i] == Blank(b, f).children[i];
      BlankReplaceBoth(a.children[i], b.children[i], p[1..], na, nb, f);
      var ra := ReplaceAt(a, p, na);
      var rb := ReplaceAt(b, p, nb);
      forall j | 0 <= j < |ra.children|
        ensures Blank(ra.children[j], f) == Blank(rb.children[j], f)
      {
        if j != i {
          assert Blank(a, f).children[j] == Blank(b, f).children[j];
        }
      }
      assert ra.(children := []) == a.(children := []);
      assert rb.(children := []) == b.(children := []);
      BlankOwnFields(a, f);
      BlankOwnFields(b, f);
      BlankFromChildren(ra, rb, f);
    }
  }

  /** Replacing a node by one that agrees with it off field `f` changes the
      tree only in field `f`. */
  lemma {:induction false} BlankReplace(t: Tree, p: Path, n: Tree, f: Field)
    requires ValidPath(t, p) && Blank(n, f) == Blank(NodeAt(t, p), f)
    ensures Blank(ReplaceAt(t, p, n), f) == Blank(t, f)
    decreases |p|
  {
    if p != [] {
      BlankReplace(t.children[p[0]], p[1..], n, f);
      var r := ReplaceAt(t, p, n);
      assert r.(children := []) == t.(children := []);
      BlankFromChildren(r, t, f);
    }
  }

  /** Trees that agree off field `f` have the same paths, and agree off `f`
      at every one of them. */
  lemma {:induction false} BlankPaths(a: Tree, b: Tree, f: Field, q: Path)
    requires Blank(a, f) == Blank(b, f) && ValidPath(a, q)
    ensures ValidPath(b, q) && Blank(NodeAt(a, q), f) == Blank(NodeAt(b, q), f)
    ensures |NodeAt(a, q).children| == |NodeAt(b, q).children|
    decreases |q|
  {
    if q != [] {
      assert Blank(a, f).children[q[0]] == Blank(b, f).children[q[0]];
      BlankPaths(a.children[q[0]], b.children[q[0]], f, q[1..]);
    }
  }
}

=== FILE: wrappers.dfy ===
/** Failure-carrying values shared by every module of the model: `Option` for
    the source's `None`-or-value returns, `Result` for its raised exceptions. */
module Wrappers {

  datatype Option<+T> = None | Some(value: T)

  datatype Result<+T, +E> = Ok(value: T) | Err(error: E)
}
